=== FILE: README.md ===
# Storefront theme logic, modelled in Dafny

This project models the pure logic inside a Shopify storefront theme's three
script files: `assets/js-shopify.js` (cart, product form, upsell, filters),
`assets/js-main.js` (accordions, tooltips, FAQ search, reading time) and
`assets/__preload-defer.js` (link handling, focus bookkeeping, the loader,
form fields). The scripts are DOM glue. In the model:

- what a handler reads from the DOM is an input;
- what it writes is a field of the result;
- what a fetch returns is a parameter.

Each module matches one component of the theme:

| module | component |
|---|---|
| `ItemQuantity` | the quantity stepper |
| `ProductForm` | variant lookup by composite title, the inventory clamp, submit state, sold-out marking |
| `CartLine` | item payloads and the variant swap of a cart line |
| `Upsell` | the "you may like" list: candidates, filtering, the pool, restore, navigation |
| `FiltersSort` | the collection filter/sort query string and the URL parameters kept |
| `Price`, `Announcement`, `InfiniteScroll` | the separator swap, the autoplay ring, the viewed counter |
| `Accordion`, `Tooltip`, `ArticleCount`, `FaqList` | the `js-main.js` components |
| `PageTransition`, `AriaFocus`, `Loader`, `Fields` | the `__preload-defer.js` components |
| `Wrappers`, `Text`, `Seqs` | `Option`, the JavaScript string built-ins used, and order-preserving filter/flatten |

Four behaviours are modelled as the code is written, not as one might expect:

- After a variant swap, the cart line adopts the key of the first line of the
  refreshed cart, whichever line that is.
- The swap's quantity clamp has no exemption for an inventory of 0. The
  product form's clamp has one.
- `isNewTab` compares the link element with the string `_blank`. The element
  converts to its href, so the test holds only for the href `_blank`.
- `filterUpsellItems` returns nothing when the cart or the list is empty.

## Model

| member | source | states |
|---|---|---|
| ItemQuantity.Step | assets/js-shopify.js:155-183 | From a value in [min, max] a press moves at most one step and stays in range. Decrease is disabled iff the new value is at or below min, and increase iff it is at or above max. A change event fires iff the value changed. A call with no direction keeps the value. |
| ItemQuantity.PressIncrease | assets/js-shopify.js:164-169 | n presses of increase reach min(value + n, max). |
| ItemQuantity.PressDecrease | assets/js-shopify.js:164-169 | n presses of decrease reach max(value - n, min). |
| ProductForm.SelectedTitles | assets/js-shopify.js:200-209 | The titles are the non-empty values of the checked pills and the dropdowns. All selectors count iff each has one. |
| ProductForm.SelectedTitlesAreChosen | assets/js-shopify.js:200-209 | The i-th title is the choice of the i-th selector that has one: exactly the chosen values, in selector order. |
| ProductForm.SaveVariantSelection | assets/js-shopify.js:197-215 | The index is -1 iff no variant's title equals the values joined with " / ". Otherwise it is the first variant with exactly that title, and that variant is returned. |
| ProductForm.ClampToInventory | assets/js-shopify.js:249-251 | A quantity above the inventory is lowered to exactly the inventory. An inventory of 0 leaves the quantity unchanged. |
| ProductForm.UpdateQuantity | assets/js-shopify.js:241-255 | The stepper gets the clamped value and max = inventory. Increase is disabled iff the value is at or above the inventory. No change event fires. |
| ProductForm.SubmitState | assets/js-shopify.js:262-272 | The form is available, and submit enabled, iff the inventory is positive. |
| ProductForm.Selections | assets/js-shopify.js:285-296 | One selection per group, or none when some group has no non-empty checked choice. |
| ProductForm.InStock | assets/js-shopify.js:314-318 | True iff some variant with positive inventory has exactly this title. |
| ProductForm.UpdateVariantDisabledState | assets/js-shopify.js:276-329 | Nothing changes with at most one group or an unselected group. Otherwise an unselected choice is disabled iff no in-stock variant has the current selection with that choice substituted. Dropdown text gains " - sold out" iff disabled. Checked choices, values and pill texts are untouched. |
| CartLine.FirstEnabledPlan | assets/js-shopify.js:572-575 | The first selling-plan control that is not disabled; none iff every one is disabled. |
| CartLine.Properties | assets/js-shopify.js:576-581 | No property is recorded with an empty value. |
| CartLine.PropertiesDomain | assets/js-shopify.js:576-581 | A key is present iff some property control with that name has a non-empty value. |
| CartLine.PropertiesLastWins | assets/js-shopify.js:576-581 | A present key holds the value of the last control with that name, so a later control overwrites an earlier one. |
| CartLine.GetItemData | assets/js-shopify.js:569-591 | No payload iff there is no id control. The id is the first id control's. The quantity is the quantity control's number, or 1 when that control is missing or empty. The selling plan is the first enabled one. |
| CartLine.SwapItemData | assets/js-shopify.js:711-734 | No payload iff the selector names no variant of the catalogue. Otherwise the payload targets the first variant with that id, with quantity min(quantity, inventory), also at inventory 0. Plan and properties are kept. |
| CartLine.PlanSwap | assets/js-shopify.js:726-743 | The swap adds the retargeted payload, then sets the old key's quantity to 0. |
| CartLine.ReboundKey | assets/js-shopify.js:747-759 | The row adopts the first line's key of the refreshed cart; none for an empty cart. |
| CartLine.SwapRebindsNewKeyWhenAddedFirst | assets/js-shopify.js:736-759 | When the store lists the added line first, the row adopts the new key and the old key is gone. |
| CartLine.SwapRebindsWrongKeyWhenAppended | assets/js-shopify.js:754-756 | When the store appends the added line, the row adopts an unrelated line's key. |
| CartLine.ClampsDisagreeAtZeroInventory | assets/js-shopify.js:731-734 | At inventory 0 the swap sets the quantity to 0, while the product form's clamp keeps it. |
| Upsell.DedupeById | assets/js-shopify.js:953-957 | The result is no longer than the input and holds only input products. |
| Upsell.DedupeKeepsOnlyFirsts | assets/js-shopify.js:953-957 | Every kept product is the first occurrence of its id. |
| Upsell.DedupeKeepsEveryId | assets/js-shopify.js:953-957 | Every id of the input survives. |
| Upsell.DedupeHasUniqueIds | assets/js-shopify.js:953-957 | No id appears twice. |
| Upsell.DedupeKeepsOrder | assets/js-shopify.js:953-957 | Kept products appear in input order. |
| Upsell.Candidates | assets/js-shopify.js:934-960 | An empty cart yields none. Every candidate is available and is not a cart product. |
| Upsell.CandidatesSpec | assets/js-shopify.js:934-960 | The candidates are exactly the eligible recommendations: one per id, the first of its id, in flattened order. Filtering each response before flattening gives the same list. |
| Upsell.CandidatesAsWritten | assets/js-shopify.js:945-948 | As written, every kept product is available; an empty cart yields none. |
| Upsell.AsWrittenIgnoresCartIds | assets/js-shopify.js:945-948 | As written, the cart-id test never removes anything: only availability filters. |
| Upsell.AsWrittenOffersCartProduct | assets/js-shopify.js:945-948 | A cart holding product 7, which is also recommended, gets product 7 offered as written. The intended exclusion drops it. |
| Upsell.CreateCards | assets/js-shopify.js:971-978 | One card per product, in order; only the first is active. |
| Upsell.CreateDots | assets/js-shopify.js:1039-1050 | No dots for at most one card; otherwise one dot per card, with only the first active. |
| Upsell.FilterUpsellItems | assets/js-shopify.js:1096-1123 | With an empty cart or list nothing changes and nothing is returned. Otherwise no remaining card has a cart handle, and the survivors keep their order. Every non-cart card remains, and the dots are rebuilt. Position by position the result equals the survivors, except that the first one is made active. |
| Upsell.FilterUpsellItemsIdempotent | assets/js-shopify.js:1096-1123 | Filtering twice against the same cart equals filtering once. |
| Upsell.StoreUpsellProducts | assets/js-shopify.js:1157-1162 | A non-empty pool is kept. An empty pool becomes the handles of the current cards. |
| Upsell.PoolRecordedOnce | assets/js-shopify.js:1157-1162 | Over any series of store calls, a recorded pool is never overwritten. An empty pool becomes the first non-empty card list. |
| Upsell.CreateUpsell | assets/js-shopify.js:909-933 | An empty cart only flags "no items". Otherwise the intended candidates' cards are appended after the existing ones. Without candidates nothing changes. With candidates, an empty pool records the handles of all cards, and a non-empty pool is kept. The dot group, when present, gets one new dot per card, the first active, or none for a single card. |
| Upsell.AsWrittenPoolRestoresCartProduct | assets/js-shopify.js:920-948 | On the Findings input the as-written pool records the cart's own product "tee", and removing its line restores it as an upsell. The intended pool is empty, so the same removal restores nothing. |
| Upsell.InitUpsell | assets/js-shopify.js:885-907 | Without the container nothing changes. With a non-empty cart the remaining cards are exactly the built list's cards whose product is not in the cart, in order. The built list is the existing one, or the created one when it had no card. With an empty cart the built list stays. has-items holds iff the cart and the filtered list are non-empty, and only-one iff exactly one card remains. An empty cart with an empty list flags the container as having no items; in every other case that flag is unchanged. A recorded pool is kept. On the first run, a pool the build step left empty records the handles of the filtered cards. |
| Upsell.RestoreUpsellItem | assets/js-shopify.js:1125-1155 | Nothing changes without the container, or for a handle outside the pool. Otherwise the fetched card goes first and is the only active card. The old cards follow in order, the dots are rebuilt, and the list shows. |
| Upsell.RestoreLeavesSoleActive | assets/js-shopify.js:1137-1142 | After a restore, exactly the first card is active. |
| Upsell.RestoreOnlyFromPool | assets/js-shopify.js:1128-1129 | A removed line whose handle is in the pool comes back first and active. Any other handle changes nothing. |
| Upsell.ArrowLeft | assets/js-shopify.js:1066-1072 | On a valid index it is (index + n - 1) mod n. |
| Upsell.ArrowRight | assets/js-shopify.js:1073-1079 | On a valid index it is (index + 1) mod n. |
| Upsell.ArrowsAreInverse | assets/js-shopify.js:1059-1080 | Left and right undo each other. |
| Upsell.StaleArrowIndexShowsNothing | assets/js-shopify.js:1059-1080 | The arrow index outlives list changes: from index 5 over 3 cards, left activates no card. |
| Upsell.ClickDot | assets/js-shopify.js:1081-1094 | Only the clicked dot and the card at its position are active; no card when the list is shorter. |
| FiltersSort.PriceRangeSelections | assets/js-shopify.js:1434-1448 | Exactly the number inputs with a value, as a subsequence of the inputs, so in order. |
| FiltersSort.FiltersSelection | assets/js-shopify.js:1449-1465 | Exactly the checked checkboxes with a value. |
| FiltersSort.FiltersSelectionIsFilter | assets/js-shopify.js:1449-1465 | One pair per checked box with a value, in document order and with repeats kept: the order-preserving filter of those boxes, mapped to their parameters. |
| FiltersSort.SortSelection | assets/js-shopify.js:1466-1488 | A sort applies iff there is a select whose value is neither `manual` nor empty. |
| FiltersSort.SortPart | assets/js-shopify.js:1487-1494 | Exactly `sort_by=<value>` when a sort applies, otherwise nothing. |
| FiltersSort.FilterSortUrl | assets/js-shopify.js:1472-1499 | The query is empty iff no price range, no checkbox filter and no sort is selected. |
| FiltersSort.FilterSortUrlIsFlatJoin | assets/js-shopify.js:1472-1499 | The query is the `&`-join of all selected pairs: price ranges, then filters, then `sort_by`. Empty groups add no separator. |
| FiltersSort.KeptParams | assets/js-shopify.js:1509-1516 | A parameter is kept iff its key contains neither `filter` nor `sort_by`. The kept ones are a subsequence of the page's parameters, so order is kept. |
| FiltersSort.UpdatedParams | assets/js-shopify.js:1509-1524 | The fetched parameter string is empty iff nothing is kept and the panel's query is empty. |
| FiltersSort.UpdatedParamsShape | assets/js-shopify.js:1517-1524 | The fetched parameters are the kept pairs followed by the panel's query. They are the query alone when nothing is kept, and the kept pairs alone when the query is empty, as in the clear-all update. |
| FiltersSort.KeptParamsIdempotent | assets/js-shopify.js:1509-1516 | Filtering already-filtered parameters changes nothing. |
| Price.SanitizePrice | assets/js-shopify.js:3-14 | With the comma money format, `.` and `,` are swapped and every other character is kept; otherwise the string is unchanged. |
| Price.SanitizeInvolution | assets/js-shopify.js:3-14 | Sanitizing twice restores the original. |
| Price.SanitizeExample | assets/js-shopify.js:9-10 | "1.234,56" becomes "1,234.56" in a comma-decimal store. |
| Announcement.NextIndex | assets/js-shopify.js:1787-1788 | On a valid index it is (index + 1) mod count. |
| Announcement.AdvanceIsModular | assets/js-shopify.js:1779-1791 | k autoplay steps move k places round the ring. |
| Announcement.UpdateActiveMessage | assets/js-shopify.js:1813-1831 | Exactly the block and the dot at the index are active. |
| Announcement.ActiveDot | assets/js-shopify.js:1783-1786 | The first active dot, or none iff no dot is active. |
| Announcement.AutoplayTick | assets/js-shopify.js:1779-1791 | Paused, or with no active dot, nothing changes. Otherwise the next message shows. |
| Announcement.TickKeepsSingleActive | assets/js-shopify.js:1779-1791 | With exactly one active dot, a tick leaves exactly the next one active. |
| InfiniteScroll.Append | assets/js-shopify.js:1404-1419 | The viewed count is min(viewed + page, max): at most both, and equal to one of them. The max-items flag is set once the count equals the maximum. |
| InfiniteScroll.AppendNCount | assets/js-shopify.js:1393-1419 | After k appends the count is min(start + k * page, max). The flag is up iff that is the maximum. |
| InfiniteScroll.AppendNStaysMax | assets/js-shopify.js:1404-1419 | Once at the maximum, appends change nothing. |
| Accordion.Expand | assets/js-main.js:50-59 | Without content nothing changes. Otherwise the accordion is open and aria-expanded/aria-hidden agree with it. |
| Accordion.Collapse | assets/js-main.js:61-70 | Without content nothing changes. Otherwise the accordion is closed and the attributes agree. |
| Accordion.ExpandCollapseRoundTrip | assets/js-main.js:50-70 | Both keep the attributes in step, and undo each other. |
| Accordion.Connect | assets/js-main.js:7-14 | An accordion rendered open is expanded with synced attributes. |
| Accordion.Toggle | assets/js-main.js:34-48 | The clicked accordion flips iff it has content. Without close-siblings nothing else changes. With close-siblings every other open accordion is collapsed and every closed one stays as it was. |
| Accordion.CollapseSiblings | assets/js-main.js:39-43 | Every accordion except the clicked one is collapsed if it was open and unchanged otherwise. The clicked one is untouched. |
| Accordion.CloseSiblingsToggle | assets/js-main.js:34-48 | With close-siblings, and content everywhere, at most one accordion is open afterwards. All attributes stay in step. |
| Accordion.ToggleTwice | assets/js-main.js:34-48 | Two toggles restore the group. |
| Tooltip.ClickTrigger | assets/js-main.js:1465-1477 | The clicked tooltip flips and every other closes. |
| Tooltip.MouseOut | assets/js-main.js:1479-1482 | Only the left tooltip closes. |
| Tooltip.ClickOutside | assets/js-main.js:1484-1492 | All tooltips close. |
| Tooltip.HandlersKeepAtMostOne | assets/js-main.js:1464-1493 | After any handler at most one tooltip is open. |
| Tooltip.ClickTwiceCloses | assets/js-main.js:1465-1477 | Two clicks on the same trigger restore that tooltip's state and leave every other tooltip closed. |
| ArticleCount.WordCount | assets/js-main.js:1244-1246 | The split yields at least one piece. |
| ArticleCount.WordCountOfJoin | assets/js-main.js:1246 | Words separated by single spaces count as exactly that many words. |
| ArticleCount.EdgeSpaceAddsPiece | assets/js-main.js:1246 | One word with a single leading or trailing space counts as two pieces, because the split yields an empty piece at that edge. |
| ArticleCount.RoundedMinutes | assets/js-main.js:1245-1247 | The result is the minute count whose 200-word multiple is nearest to the word count, halves rounding up. |
| ArticleCount.ReadingTime | assets/js-main.js:1247 | The rounded minutes when that is at least 1, otherwise 1. The time is 1 minute iff there are fewer than 300 words. |
| ArticleCount.ReadingTimeMonotone | assets/js-main.js:1240-1251 | More words never give a shorter reading time. |
| FaqList.Limit | assets/js-main.js:1503 | An unparsable or zero limit becomes 12; any other parsed value is kept. |
| FaqList.SliceTo | assets/js-main.js:1578 | A prefix of the list, of length min(limit, n), or n + limit for a negative limit. |
| FaqList.Render | assets/js-main.js:1577-1606 | The fallback iff the cut list is empty. Otherwise one entry per kept answer, with an id iff ids are requested and present. |
| FaqList.RenderBounded | assets/js-main.js:1577-1606 | With a positive limit at most `limit` entries; the fallback iff the list is empty. |
| FaqList.OnInput | assets/js-main.js:1654-1665 | The keyword, trimmed of all ECMAScript white space, becomes the latest. Over 2 UTF-16 code units, a search is scheduled and the clear button shows. Otherwise the original list renders and the button hides. |
| FaqList.OnSearchResponse | assets/js-main.js:1630-1647 | A response renders, with ids, iff its query equals the latest keyword. |
| FaqList.OnClear | assets/js-main.js:1670-1677 | The keyword is emptied, the button hidden, and the original list rendered. |
| FaqList.OnListLoaded | assets/js-main.js:1611-1627 | The loaded list becomes the original and is rendered without ids. |
| FaqList.ScheduledQueriesAreLong | assets/js-main.js:1654-1665 | Every scheduled query is longer than two UTF-16 code units. |
| Text.Utf16LengthOfBmp | assets/js-main.js:1657 | For text inside the Basic Multilingual Plane, `length` is the character count. |
| FaqList.AstralKeywordIsSearched | assets/js-main.js:1655-1659 | One emoji and one letter count as three code units, so the keyword is searched. |
| FaqList.ClearDropsPendingSearches | assets/js-main.js:1640-1677 | After a clear, no non-empty pending search renders. |
| FaqList.StaleResponseDropped | assets/js-main.js:1640-1656 | A response for any query but the latest typed keyword is dropped. |
| FaqList.TypeAllKeepsLastKeyword | assets/js-main.js:1654-1658 | After any run of keystrokes the latest keyword is the last value typed, trimmed. |
| FaqList.OnlyLastSearchRenders | assets/js-main.js:1640-1658 | After any run of keystrokes, a response for a query other than the last keyword leaves the state unchanged. |
| FaqList.LatestResponseShown | assets/js-main.js:1640-1660 | The response to the latest scheduled keyword is rendered. |
| PageTransition.GetHrefType | assets/__preload-defer.js:170-183 | Anchor iff the href starts with `#` or matches the page URL without fragment. Internal iff not an anchor and it starts with `/` or contains the site URL. External otherwise. |
| PageTransition.FragmentOfCurrentPageIsAnchor | assets/__preload-defer.js:172-178 | A fragment link to the current page is an anchor, even when it is also in-site. |
| PageTransition.SiteLinkIsInternal | assets/__preload-defer.js:171-181 | An absolute link into the site that is not an anchor is internal. |
| PageTransition.ApplyDefaults | assets/__preload-defer.js:208-214 | External links get rel=noopener. A set target is kept and an empty one becomes `_blank`. Other links are untouched. |
| PageTransition.ApplyDefaultsIdempotent | assets/__preload-defer.js:208-214 | Applying the defaults twice equals applying them once. |
| PageTransition.OnLinkClick | assets/__preload-defer.js:186-206 | A click is intercepted iff the link is internal, no modifier key is held and the href is not `_blank`. Then the overlay classes go, is-leaving is added, and the page goes to the href. |
| PageTransition.BlankTargetStillIntercepted | assets/__preload-defer.js:186-206 | An absolute link to another page of the site with target `_blank` is still intercepted, since the target is never read. |
| AriaFocus.Restored | assets/__preload-defer.js:78-80 | The cached original when it is non-empty, otherwise "0". |
| AriaFocus.Visit | assets/__preload-defer.js:69-81 | The original tabindex is cached only on first sight and never overwritten. The element gets "-1" when hidden, otherwise its original or "0". No other element changes. |
| AriaFocus.VisitAllExtends | assets/__preload-defer.js:68-82 | A container pass caches each of its elements, and keeps every recorded original. |
| AriaFocus.UpdateFocusable | assets/__preload-defer.js:47-84 | An update caches an original for every focusable element of every container, and forgets none cached before. |
| AriaFocus.UpdateExtends | assets/__preload-defer.js:47-84 | Over a whole update, originals are only added, and each is the element's attribute before it was first seen. |
| AriaFocus.VisitAllUniform | assets/__preload-defer.js:61-82 | After a container's pass, each of its elements carries "-1" if hidden, otherwise its original or "0". |
| AriaFocus.HideThenUnhideRestores | assets/__preload-defer.js:70-81 | Hiding then showing a container returns each element to its tabindex before the first update, or "0". |
| Loader.UpdateProgress | assets/__preload-defer.js:238-259 | The bar ticks. The start value is recorded only when no progress is. |
| Loader.Tick | assets/__preload-defer.js:246-257 | The bar completes, and its interval stops, iff the new progress reaches 100. Otherwise it advances by the increment. |
| Loader.Complete | assets/__preload-defer.js:262-265 | The progress is 100 and a settle is pending. |
| Loader.Settle | assets/__preload-defer.js:266-271 | The bar parks at 101 with no interval. |
| Loader.TicksComplete | assets/__preload-defer.js:246-257 | With increments of at least 5, n ticks complete a bar at p once 5n reaches 100 - p. |
| Loader.StoppedStays | assets/__preload-defer.js:251-253 | A stopped bar ignores ticks. |
| Loader.LaterLoadsCompleteAtOnce | assets/__preload-defer.js:242-266 | Progress is never reset: after settling at 101, the next load completes on its first tick. |
| Fields.UpdateState | assets/__preload-defer.js:120-124 | is-contain-value is present iff the value is non-empty; no other class changes. |
| Fields.OnChange | assets/__preload-defer.js:126-129 | The field takes the new value. is-contain-value is present iff that value is non-empty; no other class changes. |
| Fields.InitAll | assets/__preload-defer.js:131-133 | Every field is updated on start. |
| Fields.ChangesKeepClassInStep | assets/__preload-defer.js:126-129 | After any change events, the class mirrors the last value and another update changes nothing. |

## Left out

- Network calls are outside the model. This covers cart add and update, recommendations, product JSON, discounts, the help-desk API and oEmbed. Their results are parameters: `responses`, `fetched`, `data` and the refreshed cart keys. No retry, ordering or rollback exists to state.
- DOM and HTML handling are outside the model: markup templates, `normalizeHtml`, `parseHtmlString`, `querySelector` plumbing and the mutation and intersection observers. Elements are records or positions in a sequence.
- Floating-point money and percentages are outside the model: `formatSplitPrice`, `formatShopifyMoney`, cart stats, price multipliers, free-shipping and progress-bar widths.
- Timers are explicit steps: debounce, autoplay intervals, the loader's interval and settle timeout, and the accordion height animation. A debounced search is an output; its response is an input.
- `getRandomInt`, `getSiblings`, `formatPad` and `debounce` are not part of this model. Random values are inputs. Siblings are the other accordions of the group.
- Third-party wrappers are outside the model: sliders, video players, chat, clipboard, the History API, `encodeURI`/`encodeURIComponent` and gift-card dates.
- `assets/abra.js` has no logic of its own and is not part of this model.
- Cart note, gift wrap, discount codes, cart stats, minicart opening and the cart aria-hidden toggles have no statable logic. They are not modelled.
- Upsell.RestoreUpsellItem: a fetched product without an available variant leaves the list unchanged. In the source the card builder throws on that product.
- Upsell.CreateUpsell: the cards are built from the intended candidates (`Upsell.Candidates`), not from the as-written ones of the Findings row. As written, recommended products already in the cart also get cards. They are then recorded in the pool before `filterUpsellItems` removes their cards, so removing such a cart line brings its product back as an upsell. The model's pool omits them. `Upsell.AsWrittenPoolRestoresCartProduct` shows the difference on the Findings input.
- Upsell.InitUpsell: the built list inherits the intended candidates from `Upsell.CreateUpsell` (see above). Arrow and dot handler registration on first run is not modelled; `ArrowLeft`, `ArrowRight` and `ClickDot` model the handlers themselves.
- ItemQuantity.Step: values are parsed integers. A non-numeric input value and zero-padded display are not modelled.
- CartLine.GetItemData: the quantity is a parsed integer, where the source sends the input's string.
- CartLine.SwapItemData: variant ids are compared as strings. The catalogue's JSON encoding of ids is not part of this model.
- Announcement.AutoplayTick: a dot's `data-announcement-trigger` index is taken to be its position among the dots.
- PageTransition.GetHrefType: the href is classified as the string the element reports. The browser's resolution of relative hrefs to absolute URLs is not modelled.
- FaqList.Render: answer bodies pass through unchanged, since HTML normalisation is out of scope. A non-array response, on which `slice` fails, is not modelled.
- FiltersSort.UpdatedParams: URL parameters arrive already parsed into pairs. `URLSearchParams` decoding is not modelled.
- Loader.Tick: a bar with no recorded number is left unchanged. The source would write NaN and keep ticking, but `UpdateProgress` always records a number first.

## Findings

| source | as written | input that shows it | evidently intended | confidence | as-written member | corrected member |
|---|---|---|---|---|---|---|
| assets/js-shopify.js:945-948 | `allLineItemsIds.includes(product.id)` looks for a JSON number among attribute strings. `includes` never equates the two, so no cart product is excluded. | Cart ids `["7"]`; one response holding available product 7 with handle "tee". Product 7 is returned as a candidate. | Recommended products that are already in the cart are dropped. | medium; not executed | Upsell.CandidatesAsWritten (shown by Upsell.AsWrittenOffersCartProduct) | Upsell.Candidates |

=== FILE: accordion.dfy ===
/** `ComponentAccordion`: an accordion is expanded or collapsed together with
    its aria attributes; a toggle in close-siblings mode first collapses the
    other open accordions of its group. The height animation is not modelled. */
module Accordion {
  import opened Wrappers

  /** The is-active class, whether a content element exists, the accordion's
      aria-expanded attribute and its content's aria-hidden attribute (absent
      until first set). */
  datatype Accordion = Accordion(active: bool, hasContent: bool,
                                 ariaExpanded: Option<bool>, contentHidden: Option<bool>)

  /** The attributes agree with the class: aria-expanded mirrors is-active and
      the content is aria-hidden exactly when the accordion is closed. */
  predicate Synced(a: Accordion)
  {
    a.ariaExpanded == Some(a.active) && a.contentHidden == Some(!a.active)
  }

  /** `expandAccordion`: without a content element nothing happens. */
  function Expand(a: Accordion): (r: Accordion)
    ensures !a.hasContent ==> r == a
    ensures a.hasContent ==> r.active && Synced(r)
    ensures r.hasContent == a.hasContent
  {
    if !a.hasContent then a
    else a.(active := true, ariaExpanded := Some(true), contentHidden := Some(false))
  }

  /** `collapseAccordion`: without a content element nothing happens. */
  function Collapse(a: Accordion): (r: Accordion)
    ensures !a.hasContent ==> r == a
    ensures a.hasContent ==> !r.active && Synced(r)
    ensures r.hasContent == a.hasContent
  {
    if !a.hasContent then a
    else a.(active := false, ariaExpanded := Some(false), contentHidden := Some(true))
  }

  /** Expanding and collapsing preserve the attribute invariant, and undo
      each other on an accordion with content. */
  lemma ExpandCollapseRoundTrip(a: Accordion)
    requires Synced(a)
    ensures Synced(Expand(a)) && Synced(Collapse(a))
    ensures a.hasContent && !a.active ==> Collapse(Expand(a)) == a
    ensures a.hasContent && a.active ==> Expand(Collapse(a)) == a
  {
  }

  /** `connectedCallback`: an accordion rendered open is expanded. */
  function Connect(a: Accordion): (r: Accordion)
    ensures a.active && a.hasContent ==> Synced(r) && r.active
    ensures !a.active ==> r == a
  {
    if a.active then Expand(a) else a
  }

  /** The siblings of `i` that are open are collapsed. */
  function CollapseSiblings(group: seq<Accordion>, i: nat): (r: seq<Accordion>)
    requires i < |group|
    ensures |r| == |group| && r[i] == group[i]
    ensures forall k :: 0 <= k < |r| && k != i ==>
      r[k] == (if group[k].active then Collapse(group[k]) else group[k])
  {
    seq(|group|, k requires 0 <= k < |group| =>
      if k != i && group[k].active then Collapse(group[k]) else group[k])
  }

  /** `toggleAccordion` on the accordion at `i` of its group: with
      close-siblings the open siblings are collapsed first; then the clicked
      accordion is collapsed if it was open and expanded otherwise. */
  function Toggle(group: seq<Accordion>, i: nat, closeSiblings: bool): (r: seq<Accordion>)
    requires i < |group|
    ensures |r| == |group|
    ensures group[i].hasContent ==> r[i].active == !group[i].active
    ensures !group[i].hasContent ==> r[i] == group[i]
    ensures !closeSiblings ==> forall k :: 0 <= k < |r| && k != i ==> r[k] == group[k]
    ensures closeSiblings ==> forall k :: 0 <= k < |r| && k != i ==>
      r[k] == (if group[k].active then Collapse(group[k]) else group[k])
  {
    var g := if closeSiblings then CollapseSiblings(group, i) else group;
    g[i := if group[i].active then Collapse(group[i]) else Expand(group[i])]
  }

  /** At most one accordion of the group is open. */
  predicate AtMostOneActive(group: seq<Accordion>)
  {
    forall j, k :: 0 <= j < |group| && 0 <= k < |group| && group[j].active && group[k].active ==> j == k
  }

  /** A close-siblings toggle leaves at most one accordion open when every
      accordion of the group has content, and the attributes of every
      accordion stay in step with its class. */
  lemma CloseSiblingsToggle(group: seq<Accordion>, i: nat)
    requires i < |group|
    requires forall k :: 0 <= k < |group| ==> group[k].hasContent
    ensures AtMostOneActive(Toggle(group, i, true))
    ensures (forall k :: 0 <= k < |group| ==> Synced(group[k])) ==>
      forall k :: 0 <= k < |group| ==> Synced(Toggle(group, i, true)[k])
  {
    var r := Toggle(group, i, true);
    assert forall k :: 0 <= k < |r| && k != i ==> !r[k].active;
  }

  /** Without close-siblings, toggling twice restores the group of a synced
      accordion with content. */
  lemma ToggleTwice(group: seq<Accordion>, i: nat)
    requires i < |group| && group[i].hasContent && Synced(group[i])
    ensures Toggle(Toggle(group, i, false), i, false) == group
  {
  }
}

=== FILE: announcement.dfy ===
/** The announcement bar (`gAnnouncement`): a row of message blocks with one
    dot per block; autoplay moves to the next message, wrapping round, and a
    dot click shows its message. */
module Announcement {
  import opened Wrappers

  /** The is-active flags of the blocks and of the dots, position by position. */
  datatype Bar = Bar(blocks: seq<bool>, dots: seq<bool>)

  /** The autoplay successor of the active index among `count` dots: the next
      one, or the first after the last. */
  function NextIndex(active: int, count: nat): (next: int)
    ensures 0 <= active < count ==> 0 <= next < count && next == (active + 1) % count
  {
    if active < count - 1 then active + 1 else 0
  }

  /** The index reached from `active` after `k` autoplay ticks. */
  function Advance(active: int, count: nat, k: nat): int
    decreases k
  {
    if k == 0 then active else Advance(NextIndex(active, count), count, k - 1)
  }

  /** Autoplay cycles: `k` ticks move `k` places round the ring, so every
      message comes back after `count` ticks. */
  lemma {:induction false} AdvanceIsModular(active: int, count: nat, k: nat)
    requires 0 <= active < count
    ensures Advance(active, count, k) == (active + k) % count
    decreases k
  {
    if k > 0 {
      if active < count - 1 {
        assert NextIndex(active, count) == active + 1;
        AdvanceIsModular(active + 1, count, k - 1);
        assert active + 1 + (k - 1) == active + k;
      } else {
        assert NextIndex(active, count) == 0;
        AdvanceIsModular(0, count, k - 1);
        ModShift(k - 1, count);
        assert active + k == (k - 1) + count;
      }
    }
  }

  /** Adding the modulus does not change the remainder. */
  lemma ModShift(x: nat, m: nat)
    requires m > 0
    ensures (x + m) % m == x % m
  {
    var q, r := x / m, x % m;
    assert x == q * m + r;
    assert x + m == (q + 1) * m + r;
    ModUnique(x + m, m, q + 1, r);
  }

  /** The remainder is the only `r` in `[0, m)` with `x == q * m + r`. */
  lemma ModUnique(x: int, m: int, q: int, r: int)
    requires m > 0 && 0 <= r < m && x == q * m + r
    ensures x % m == r
  {
    var q0, r0 := x / m, x % m;
    assert x == q0 * m + r0;
    var d := q - q0;
    assert d * m == r0 - r;
  }

  /** `updateActiveMessage`: exactly the block and the dot at `index` are active. */
  function UpdateActiveMessage(b: Bar, index: int): (r: Bar)
    ensures |r.blocks| == |b.blocks| && |r.dots| == |b.dots|
    ensures forall i :: 0 <= i < |r.blocks| ==> (r.blocks[i] <==> i == index)
    ensures forall i :: 0 <= i < |r.dots| ==> (r.dots[i] <==> i == index)
  {
    Bar(seq(|b.blocks|, i requires 0 <= i < |b.blocks| => i == index),
        seq(|b.dots|, i requires 0 <= i < |b.dots| => i == index))
  }

  /** The index of the first active dot, if any. */
  function ActiveDot(dots: seq<bool>): (r: Option<nat>)
    ensures r.None? <==> forall i :: 0 <= i < |dots| ==> !dots[i]
    ensures r.Some? ==> r.value < |dots| && dots[r.value] && forall i :: 0 <= i < r.value ==> !dots[i]
  {
    if |dots| == 0 then None
    else if dots[0] then Some(0)
    else
      var rest := ActiveDot(dots[1..]);
      if rest.Some? then Some(rest.value + 1) else None
  }

  /** One autoplay tick: nothing while autoplay is paused by the pointer, or
      when no dot is active (the lookup fails); otherwise the next message. */
  function AutoplayTick(b: Bar, paused: bool): (r: Bar)
    ensures paused || ActiveDot(b.dots).None? ==> r == b
    ensures !paused && ActiveDot(b.dots).Some? ==>
      r == UpdateActiveMessage(b, NextIndex(ActiveDot(b.dots).value, |b.dots|))
  {
    if paused then b
    else
      match ActiveDot(b.dots)
      case None => b
      case Some(a) => UpdateActiveMessage(b, NextIndex(a, |b.dots|))
  }

  /** A bar with exactly one active dot keeps exactly one after a tick, and
      it is the next one round the ring. */
  lemma TickKeepsSingleActive(b: Bar, a: nat)
    requires a < |b.dots| && forall i :: 0 <= i < |b.dots| ==> (b.dots[i] <==> i == a)
    ensures var r := AutoplayTick(b, false);
      forall i :: 0 <= i < |r.dots| ==> (r.dots[i] <==> i == (a + 1) % |b.dots|)
  {
    assert b.dots[a];
    var d := ActiveDot(b.dots);
    assert d.Some? && b.dots[d.value];
    assert d == Some(a);
  }
}

=== FILE: aria_focus.dfy ===
/** `ariaFocusManager.updateFocusableElements`: focusable elements inside an
    aria-hidden="true" container are taken out of the tab order, and those
    inside a visible container get their original tabindex back. The first
    tabindex seen for an element is cached and never overwritten. Elements
    are numbered; the page is the list of containers carrying aria-hidden,
    each with its focusable descendants in document order. */
module AriaFocus {
  import opened Wrappers

  /** A container with an aria-hidden attribute (`hidden` when its value is
      `"true"`) and the focusable elements inside it. */
  datatype Container = Container(hidden: bool, children: seq<nat>)

  /** The tabindex attributes present on the page and the cache of original
      tabindex values (`None` for "there was no attribute"). */
  datatype Focus = Focus(tabindex: map<nat, string>, cache: map<nat, Option<string>>)

  const Unfocusable := "-1"
  const DefaultTabindex := "0"

  /** `getAttribute("tabindex")`. */
  function Attr(f: Focus, e: nat): Option<string>
  {
    if e in f.tabindex then Some(f.tabindex[e]) else None
  }

  /** `originalTabindex || "0"`: no attribute or an empty one restores "0". */
  function Restored(original: Option<string>): (t: string)
    ensures original.Some? && |original.value| > 0 ==> t == original.value
    ensures original.None? || |original.value| == 0 ==> t == DefaultTabindex
  {
    if original.Some? && |original.value| > 0 then original.value else DefaultTabindex
  }

  /** `r` is `f` after some visits: cached originals never change, elements
      never seen keep their attribute, and each newly cached original is the
      attribute the element had in `f`. */
  ghost predicate Extends(f: Focus, r: Focus)
  {
    && (forall x :: x in f.cache ==> x in r.cache && r.cache[x] == f.cache[x])
    && (forall x :: x !in r.cache ==> Attr(r, x) == Attr(f, x))
    && (forall x :: x in r.cache && x !in f.cache ==> r.cache[x] == Attr(f, x))
  }

  /** One focusable element `e` inside a container: its original tabindex is
      cached on first sight; it then gets "-1" when the container is hidden
      and its cached original (or "0") otherwise. */
  function Visit(f: Focus, e: nat, hidden: bool): (r: Focus)
    ensures Extends(f, r)
    ensures r.cache.Keys == f.cache.Keys + {e}
    ensures e in r.tabindex && r.tabindex[e] == if hidden then Unfocusable else Restored(r.cache[e])
    ensures forall x :: x != e ==> Attr(r, x) == Attr(f, x)
  {
    var cache := if e in f.cache then f.cache else f.cache[e := Attr(f, e)];
    var t := if hidden then Unfocusable else Restored(cache[e]);
    Focus(f.tabindex[e := t], cache)
  }

  lemma ExtendsTransitive(a: Focus, b: Focus, c: Focus)
    requires Extends(a, b) && Extends(b, c)
    ensures Extends(a, c)
  {
  }

  /** The elements of one container, in order. */
  function VisitAll(f: Focus, children: seq<nat>, hidden: bool): (r: Focus)
    decreases |children|
  {
    if |children| == 0 then f else VisitAll(Visit(f, children[0], hidden), children[1..], hidden)
  }

  /** `updateFocusableElements`: every container, in document order. */
  function UpdateFocusable(f: Focus, page: seq<Container>): (r: Focus)
    ensures f.cache.Keys <= r.cache.Keys
    ensures forall c, k :: 0 <= c < |page| && 0 <= k < |page[c].children| ==> page[c].children[k] in r.cache
    decreases |page|
  {
    if |page| == 0 then f
    else
      var g := VisitAll(f, page[0].children, page[0].hidden);
      VisitAllExtends(f, page[0].children, page[0].hidden);
      assert forall c :: 1 <= c < |page| ==> page[c] == page[1..][c - 1];
      UpdateFocusable(g, page[1..])
  }

  /** A container's pass extends the state and caches every one of its elements. */
  lemma {:induction false} VisitAllExtends(f: Focus, children: seq<nat>, hidden: bool)
    ensures Extends(f, VisitAll(f, children, hidden))
    ensures forall k :: 0 <= k < |children| ==> children[k] in VisitAll(f, children, hidden).cache
    decreases |children|
  {
    if |children| > 0 {
      var g := Visit(f, children[0], hidden);
      VisitAllExtends(g, children[1..], hidden);
      ExtendsTransitive(f, g, VisitAll(g, children[1..], hidden));
      forall k | 0 <= k < |children|
        ensures children[k] in VisitAll(f, children, hidden).cache
      {
        if k > 0 {
          assert children[k] == children[1..][k - 1];
        }
      }
    }
  }

  /** Any number of update passes only ever add to the cache: an original,
      once recorded, is never overwritten, and it is the attribute the
      element had before it was first seen. */
  lemma {:induction false} UpdateExtends(f: Focus, page: seq<Container>)
    ensures Extends(f, UpdateFocusable(f, page))
    decreases |page|
  {
    if |page| > 0 {
      var g := VisitAll(f, page[0].children, page[0].hidden);
      VisitAllExtends(f, page[0].children, page[0].hidden);
      UpdateExtends(g, page[1..]);
      ExtendsTransitive(f, g, UpdateFocusable(g, page[1..]));
    }
  }

  /** Within one container's pass every element ends with the same rule
      applied: "-1" when hidden, its cached original (or "0") otherwise. */
  lemma {:induction false} VisitAllUniform(f: Focus, children: seq<nat>, hidden: bool)
    ensures var r := VisitAll(f, children, hidden);
      forall k :: 0 <= k < |children| ==>
        && children[k] in r.tabindex && children[k] in r.cache
        && r.tabindex[children[k]] == if hidden then Unfocusable else Restored(r.cache[children[k]])
    decreases |children|
  {
    if |children| > 0 {
      var g := Visit(f, children[0], hidden);
      var r := VisitAll(g, children[1..], hidden);
      VisitAllUniform(g, children[1..], hidden);
      VisitAllExtends(g, children[1..], hidden);
      forall k | 0 <= k < |children|
        ensures children[k] in r.tabindex && children[k] in r.cache &&
          r.tabindex[children[k]] == if hidden then Unfocusable else Restored(r.cache[children[k]])
      {
        if k > 0 {
          assert children[k] == children[1..][k - 1];
        } else if children[0] !in children[1..] {
          VisitAllUntouched(g, children[1..], hidden, children[0]);
        } else {
          var j :| 0 <= j < |children[1..]| && children[1..][j] == children[0];
        }
      }
    }
  }

  /** An element outside a container keeps its attribute during that container's pass. */
  lemma {:induction false} VisitAllUntouched(f: Focus, children: seq<nat>, hidden: bool, e: nat)
    requires e !in children
    ensures Attr(VisitAll(f, children, hidden), e) == Attr(f, e)
    decreases |children|
  {
    if |children| > 0 {
      assert e !in children[1..];
      VisitAllUntouched(Visit(f, children[0], hidden), children[1..], hidden, e);
    }
  }

  /** Hiding a container and then showing it again gives each of its
      elements back the tabindex it had before the first update (or "0" if
      it had none). */
  lemma HideThenUnhideRestores(f: Focus, children: seq<nat>, e: nat)
    requires e in children && e !in f.cache
    ensures var hiddenPage := UpdateFocusable(f, [Container(true, children)]);
      var shownPage := UpdateFocusable(hiddenPage, [Container(false, children)]);
      && Attr(hiddenPage, e) == Some(Unfocusable)
      && Attr(shownPage, e) == Some(Restored(Attr(f, e)))
  {
    var k :| 0 <= k < |children| && children[k] == e;
    var h := VisitAll(f, children, true);
    assert UpdateFocusable(f, [Container(true, children)]) == UpdateFocusable(h, []) == h;
    VisitAllUniform(f, children, true);
    VisitAllExtends(f, children, true);
    var s := VisitAll(h, children, false);
    assert UpdateFocusable(h, [Container(false, children)]) == UpdateFocusable(s, []) == s;
    VisitAllUniform(h, children, false);
    VisitAllExtends(h, children, false);
  }
}

=== FILE: article_count.dfy ===
/** `initArticleCount`: the "N min read" label of an article, from the number
    of pieces `content.split(/\s+/)` yields and 200 words per minute. */
module ArticleCount {
  import Text

  const WordsPerMinute := 200

  /** The number of maximal whitespace runs of `s`, where `afterSpace` says
      whether the character before `s` was whitespace. */
  function RunsFrom(s: string, afterSpace: bool): nat
  {
    if |s| == 0 then 0
    else (if Text.IsSpace(s[0]) && !afterSpace then 1 else 0) + RunsFrom(s[1..], Text.IsSpace(s[0]))
  }

  /** The length of `content.split(/\s+/)`: one more piece than there are
      whitespace runs (the empty content is one empty piece). */
  function WordCount(content: string): (n: nat)
    ensures n >= 1
  {
    1 + RunsFrom(content, false)
  }

  /** A word: non-empty and free of whitespace. */
  predicate IsWord(w: string)
  {
    |w| > 0 && forall i :: 0 <= i < |w| ==> !Text.IsSpace(w[i])
  }

  lemma {:induction false} WordThenRest(w: string, rest: string, afterSpace: bool)
    requires forall i :: 0 <= i < |w| ==> !Text.IsSpace(w[i])
    requires |w| > 0 || !afterSpace
    ensures RunsFrom(w + rest, afterSpace) == RunsFrom(rest, false)
    decreases |w|
  {
    if |w| > 0 {
      assert (w + rest)[1..] == w[1..] + rest;
      WordThenRest(w[1..], rest, false);
    } else {
      assert w + rest == rest;
    }
  }

  /** Words separated by single spaces count as exactly that many words. */
  lemma {:induction false} WordCountOfJoin(words: seq<string>)
    requires |words| > 0 && forall i :: 0 <= i < |words| ==> IsWord(words[i])
    ensures WordCount(Text.Join(words, " ")) == |words|
    decreases |words|
  {
    if |words| == 1 {
      WordThenRest(words[0], "", false);
      assert words[0] + "" == words[0];
    } else {
      var rest := Text.Join(words[1..], " ");
      assert Text.Join(words, " ") == words[0] + (" " + rest);
      WordThenRest(words[0], " " + rest, false);
      WordCountOfJoin(words[1..]);
      assert IsWord(words[1]);
      JoinStartsWithWord(words[1..]);
      assert (" " + rest)[1..] == rest;
      assert RunsFrom(rest, true) == RunsFrom(rest, false);
    }
  }

  /** A single leading or trailing space splits off an empty piece:
      `" w".split(/\s+/)` and `"w ".split(/\s+/)` both have two pieces,
      so the count is one more than the text's words. */
  lemma {:induction false} EdgeSpaceAddsPiece(w: string)
    requires IsWord(w)
    ensures WordCount(" " + w) == 2 && WordCount(w + " ") == 2
  {
    assert Text.IsSpace(' ');
    assert (" " + w)[0] == ' ' && (" " + w)[1..] == w;
    WordThenRest(w, "", true);
    assert w + "" == w;
    assert RunsFrom(w, true) == 0;
    WordThenRest(w, " ", false);
    assert RunsFrom(" ", false) == 1 + RunsFrom(" "[1..], true);
    assert " "[1..] == "";
  }

  lemma JoinStartsWithWord(words: seq<string>)
    requires |words| > 0 && IsWord(words[0])
    ensures |Text.Join(words, " ")| > 0 && !Text.IsSpace(Text.Join(words, " ")[0])
  {
  }

  /** `Math.round(w / 200)` for a word count: the number of minutes whose
      200-word multiple is nearest to `w`, halves rounding up. */
  function RoundedMinutes(w: nat): (m: nat)
    ensures w < WordsPerMinute * m + WordsPerMinute / 2
    ensures WordsPerMinute * m <= w + WordsPerMinute / 2
  {
    (w + WordsPerMinute / 2) / WordsPerMinute
  }

  /** `Math.max(1, Math.round(wordCount / 200))`. */
  function ReadingTime(w: nat): (m: nat)
    ensures m >= 1
    ensures RoundedMinutes(w) >= 1 ==> m == RoundedMinutes(w)
    ensures RoundedMinutes(w) == 0 ==> m == 1
    ensures m == 1 <==> w < 3 * WordsPerMinute / 2
  {
    var r := RoundedMinutes(w);
    if r < 1 then 1 else r
  }

  /** More words never mean a shorter reading time. */
  lemma ReadingTimeMonotone(w: nat, w': nat)
    requires w <= w'
    ensures ReadingTime(w) <= ReadingTime(w')
  {
  }

  /** Reading time of 250 words: 250 / 200 = 1.25 rounds to one minute;
      300 words (1.5) round up to two. */
  lemma ReadingTimeExamples()
    ensures ReadingTime(0) == 1 && ReadingTime(250) == 1 && ReadingTime(300) == 2 && ReadingTime(1000) == 5
  {
  }
}

=== FILE: cart_line.dfy ===
/** Cart line items: reading a form into the item payload sent to the cart,
    and the variant-swap protocol of a cart line (add the new variant, zero the
    old line, then adopt the key of the first line of the refreshed cart). */
module CartLine {
  import opened Wrappers
  import Seqs
  import ProductForm
  import ItemQuantity

  /** A named control of a product form or cart line. A quantity input holds
      its parsed value, or `None` when it is empty. */
  datatype Field =
    | IdField(id: string)
    | QuantityField(quantity: Option<int>)
    | SellingPlanField(plan: string, disabled: bool)
    | PropertyField(key: string, value: string)

  /** The payload of one item for the cart's add endpoint. */
  datatype ItemData = ItemData(id: string, quantity: int, sellingPlan: Option<string>, properties: map<string, string>)

  /** The first `id` control's value, if there is one. */
  function FirstId(fields: seq<Field>): (r: Option<string>)
    ensures r.None? <==> forall i :: 0 <= i < |fields| ==> !fields[i].IdField?
    ensures r.Some? ==> exists i :: 0 <= i < |fields| && fields[i] == IdField(r.value)
  {
    if |fields| == 0 then None
    else if fields[0].IdField? then Some(fields[0].id)
    else FirstId(fields[1..])
  }

  /** The first quantity control's content, if there is one. */
  function FirstQuantity(fields: seq<Field>): (r: Option<Option<int>>)
    ensures r.None? <==> forall i :: 0 <= i < |fields| ==> !fields[i].QuantityField?
    ensures r.Some? ==> exists i :: 0 <= i < |fields| && fields[i] == QuantityField(r.value)
  {
    if |fields| == 0 then None
    else if fields[0].QuantityField? then Some(fields[0].quantity)
    else FirstQuantity(fields[1..])
  }

  /** The first selling-plan control that is not disabled, if there is one. */
  function FirstEnabledPlan(fields: seq<Field>): (r: Option<string>)
    ensures r.None? <==> forall i :: 0 <= i < |fields| ==> !(fields[i].SellingPlanField? && !fields[i].disabled)
    ensures r.Some? ==> exists i :: 0 <= i < |fields| && fields[i] == SellingPlanField(r.value, false)
  {
    if |fields| == 0 then None
    else if fields[0].SellingPlanField? && !fields[0].disabled then Some(fields[0].plan)
    else FirstEnabledPlan(fields[1..])
  }

  /** A property control that actually contributes: named `key`, non-empty. */
  predicate Sets(f: Field, key: string)
  {
    f.PropertyField? && f.key == key && f.value != ""
  }

  /** Control `i` is the last one of `fields` that sets `key`. */
  predicate LastSetter(fields: seq<Field>, key: string, i: int)
  {
    0 <= i < |fields| && Sets(fields[i], key) &&
    forall j :: i < j < |fields| ==> !Sets(fields[j], key)
  }

  /** The `properties` object: every non-empty property control, where a later
      control of the same name overwrites an earlier one. */
  function Properties(fields: seq<Field>): (m: map<string, string>)
    ensures forall k :: k in m ==> m[k] != ""
  {
    if |fields| == 0 then map[]
    else
      var m := Properties(fields[..|fields| - 1]);
      var f := fields[|fields| - 1];
      if f.PropertyField? && f.value != "" then m[f.key := f.value] else m
  }

  /** A key is present exactly when some control sets it. */
  lemma {:induction false} PropertiesDomain(fields: seq<Field>)
    ensures forall k :: k in Properties(fields) <==> exists i :: 0 <= i < |fields| && Sets(fields[i], k)
  {
    if |fields| > 0 {
      var n := |fields| - 1;
      var init := fields[..n];
      PropertiesDomain(init);
      forall k
        ensures k in Properties(fields) <==> exists i :: 0 <= i < |fields| && Sets(fields[i], k)
      {
        if k in Properties(fields) && !Sets(fields[n], k) {
          assert k in Properties(init);
          var i :| 0 <= i < n && Sets(init[i], k);
          assert fields[i] == init[i];
        }
        if exists i :: 0 <= i < |fields| && Sets(fields[i], k) {
          var i :| 0 <= i < |fields| && Sets(fields[i], k);
          if i < n {
            assert init[i] == fields[i];
          }
        }
      }
    }
  }

  /** A present key holds the value written by the last control that sets it. */
  lemma {:induction false} PropertiesLastWins(fields: seq<Field>)
    ensures forall k :: k in Properties(fields) ==>
              exists i :: LastSetter(fields, k, i) && fields[i].value == Properties(fields)[k]
  {
    if |fields| > 0 {
      var n := |fields| - 1;
      var init := fields[..n];
      PropertiesLastWins(init);
      forall k | k in Properties(fields)
        ensures exists i :: LastSetter(fields, k, i) && fields[i].value == Properties(fields)[k]
      {
        if Sets(fields[n], k) {
          assert LastSetter(fields, k, n);
        } else {
          var i :| LastSetter(init, k, i) && init[i].value == Properties(init)[k];
          assert forall j :: i < j < n ==> init[j] == fields[j];
          assert LastSetter(fields, k, i);
        }
      }
    }
  }

  /** `getItemData`: the id, the quantity (1 when the control is missing or
      empty), the first enabled selling plan and the properties. Without an
      `id` control the source throws; the model returns `None`. */
  function GetItemData(fields: seq<Field>): (r: Option<ItemData>)
    ensures r.None? <==> forall i :: 0 <= i < |fields| ==> !fields[i].IdField?
    ensures r.Some? ==> Some(r.value.id) == FirstId(fields)
    ensures r.Some? ==> (r.value.quantity == 1 <==> FirstQuantity(fields) in {None, Some(None), Some(Some(1))})
    ensures r.Some? && FirstQuantity(fields).Some? && FirstQuantity(fields).value.Some? ==>
      r.value.quantity == FirstQuantity(fields).value.value
    ensures r.Some? && (FirstQuantity(fields).None? || FirstQuantity(fields).value.None?) ==>
      r.value.quantity == 1
    ensures r.Some? ==> r.value.sellingPlan == FirstEnabledPlan(fields)
    ensures r.Some? ==> r.value.properties == Properties(fields)
  {
    match FirstId(fields)
    case None => None
    case Some(id) =>
      var q :=
        match FirstQuantity(fields)
        case Some(Some(n)) => n
        case _ => 1;
      Some(ItemData(id, q, FirstEnabledPlan(fields), Properties(fields)))
  }

  /** The variant id a cart line's selector names: a pill only when checked. */
  function SelectedId(s: ProductForm.Selector): Option<string>
  {
    match s
    case Pill(v, checked) => if checked then Some(v) else None
    case Dropdown(v) => Some(v)
  }

  /** The add payload of a variant swap: the line's item data retargeted at the
      chosen variant, its quantity lowered to that variant's inventory when it
      exceeds it. Unlike the product form, an inventory of 0 is not exempt.
      When no catalogue entry has the chosen id the source throws; `None`. */
  function SwapItemData(item: ItemData, variants: seq<ProductForm.Variant>, s: ProductForm.Selector): (r: Option<ItemData>)
    ensures r.None? <==> SelectedId(s).None? || forall j :: 0 <= j < |variants| ==> variants[j].id != SelectedId(s).value
    ensures r.Some? ==>
              exists j :: 0 <= j < |variants| && variants[j].id == SelectedId(s).value &&
                          (forall k :: 0 <= k < j ==> variants[k].id != SelectedId(s).value) &&
                          r.value.quantity == ItemQuantity.Min(item.quantity, variants[j].inventory)
    ensures r.Some? ==> r.value.id == SelectedId(s).value
    ensures r.Some? ==> r.value.sellingPlan == item.sellingPlan && r.value.properties == item.properties
  {
    match SelectedId(s)
    case None => None
    case Some(id) =>
      var i := Seqs.FindIndex(variants, (v: ProductForm.Variant) => v.id == id);
      if i < 0 then None
      else
        var v := variants[i];
        var q := if item.quantity > v.inventory then v.inventory else item.quantity;
        Some(item.(id := v.id, quantity := q))
  }

  /** The two cart mutations a swap issues, in order: add the new item, then
      set the old line's quantity to 0. */
  datatype SwapPlan = SwapPlan(add: ItemData, removeKey: string, zero: int)

  function PlanSwap(fields: seq<Field>, key: string, variants: seq<ProductForm.Variant>, s: ProductForm.Selector): (r: Option<SwapPlan>)
    ensures r.Some? ==> r.value.removeKey == key && r.value.zero == 0
    ensures r.Some? <==> GetItemData(fields).Some? && SwapItemData(GetItemData(fields).value, variants, s).Some?
    ensures r.Some? ==> r.value.add == SwapItemData(GetItemData(fields).value, variants, s).value
  {
    match GetItemData(fields)
    case None => None
    case Some(item) =>
      match SwapItemData(item, variants, s)
      case None => None
      case Some(add) => Some(SwapPlan(add, key, 0))
  }

  /** The key the swapped row adopts: that of the first line of the refreshed
      cart, whichever line that is. An empty cart makes the source throw. */
  function ReboundKey(refreshedKeys: seq<string>): (r: Option<string>)
    ensures r.None? <==> |refreshedKeys| == 0
    ensures r.Some? ==> r.value == refreshedKeys[0]
  {
    if |refreshedKeys| == 0 then None else Some(refreshedKeys[0])
  }

  /** A line of the remote cart, for reasoning about what the swap rebinds to. */
  datatype Line = Line(key: string, variantId: string, quantity: int)

  function Keys(lines: seq<Line>): (ks: seq<string>)
    ensures |ks| == |lines|
    ensures forall i :: 0 <= i < |lines| ==> ks[i] == lines[i].key
  {
    if |lines| == 0 then [] else [lines[0].key] + Keys(lines[1..])
  }

  /** Setting a line's quantity to 0 removes every line with that key. */
  function RemoveKey(lines: seq<Line>, key: string): seq<Line>
  {
    Seqs.Filter(lines, (l: Line) => l.key != key)
  }

  /** When the store places the added line first under a fresh key, the swap
      rebinds the row to that new key, and the old key is gone from the cart. */
  lemma SwapRebindsNewKeyWhenAddedFirst(lines: seq<Line>, oldKey: string, added: Line)
    requires added.key != oldKey
    ensures var after := RemoveKey([added] + lines, oldKey);
      ReboundKey(Keys(after)) == Some(added.key) && ReboundKey(Keys(after)).value != oldKey &&
      forall i :: 0 <= i < |after| ==> after[i].key != oldKey
  {
    var keep := (l: Line) => l.key != oldKey;
    Seqs.FilterAppend([added], lines, keep);
    assert Seqs.Filter([added], keep) == [added];
  }

  /** The positional assumption as written: when the store appends the new
      line instead, the row adopts the key of an unrelated line. */
  lemma SwapRebindsWrongKeyWhenAppended()
    ensures var lines := [Line("a1", "shirt-s", 1), Line("b2", "mug", 1)];
      var after := RemoveKey(lines + [Line("c3", "shirt-m", 1)], "a1");
      ReboundKey(Keys(after)) == Some("b2")
  {
    var lines := [Line("a1", "shirt-s", 1), Line("b2", "mug", 1)];
    var all := lines + [Line("c3", "shirt-m", 1)];
    var keep := (l: Line) => l.key != "a1";
    assert all == [all[0]] + all[1..];
    assert Seqs.Filter(all, keep) == Seqs.Filter(all[1..], keep);
    assert all[1..] == [all[1]] + all[2..];
    assert Seqs.Filter(all[1..], keep) == [all[1]] + Seqs.Filter(all[2..], keep);
  }

  /** The two inventory clamps disagree at inventory 0: the product form keeps
      the quantity, the cart-line swap drops it to 0. */
  lemma ClampsDisagreeAtZeroInventory(item: ItemData, id: string)
    requires item.quantity > 0
    ensures var v := ProductForm.Variant(id, "Default Title", 0);
      SwapItemData(item, [v], ProductForm.Dropdown(id)) == Some(item.(id := id, quantity := 0)) &&
      ProductForm.ClampToInventory(item.quantity, v.inventory) == item.quantity
  {
  }
}

=== FILE: faq_list.dfy ===
/** The searchable FAQ list (`initFaqList`): the rendering limit, the rendered
    list or fallback message, and the search field's gating of requests and
    responses. Fetching, debouncing and HTML normalisation are not modelled:
    a scheduled search is an output and its response an input. */
module FaqList {
  import opened Wrappers
  import Text

  /** An answer as the help-desk service returns it. */
  datatype Answer = Answer(id: string, title: string, body: string)

  /** A rendered accordion: the answer id is attached only to search results. */
  datatype Entry = Entry(title: string, body: string, answerId: Option<string>)

  /** The container's contents: the empty-list message, or the entries with
      the has-faq class set. */
  datatype Rendered = Fallback | Items(entries: seq<Entry>)

  /** The list loaded on start, the latest keyword, the clear button's
      visibility and what the container shows. */
  datatype State = State(original: seq<Answer>, latest: string, clearVisible: bool, shown: Rendered)

  const DefaultLimit := 12
  /** Keywords must be longer than this to be searched. */
  const MinKeywordLength := 2

  /** `parseInt(data-faq-limit, 10) || 12`: an unparsable or zero limit falls
      back to 12. */
  function Limit(parsed: Option<int>): (l: int)
    ensures parsed.None? || parsed.value == 0 ==> l == DefaultLimit
    ensures parsed.Some? && parsed.value != 0 ==> l == parsed.value
  {
    if parsed.None? || parsed.value == 0 then DefaultLimit else parsed.value
  }

  /** `list.slice(0, limit)`: a negative limit counts from the end. */
  function SliceTo<T>(list: seq<T>, limit: int): (r: seq<T>)
    ensures limit >= 0 ==> |r| == if limit < |list| then limit else |list|
    ensures limit < 0 ==> |r| == if |list| + limit > 0 then |list| + limit else 0
    ensures r == list[..|r|]
  {
    var end := if limit < 0 then |list| + limit else limit;
    if end <= 0 then [] else if end < |list| then list[..end] else list
  }

  /** `renderFaqList`: the list cut to the limit; the fallback message when
      nothing is left, otherwise one entry per answer, with its id attached
      when `includeId` and the id is non-empty. */
  function Render(list: seq<Answer>, limit: int, includeId: bool): (r: Rendered)
    ensures |SliceTo(list, limit)| == 0 <==> r == Fallback
    ensures r.Items? ==> |r.entries| == |SliceTo(list, limit)|
    ensures r.Items? ==> forall i :: 0 <= i < |r.entries| ==>
      && r.entries[i].title == list[i].title && r.entries[i].body == list[i].body
      && (r.entries[i].answerId.Some? <==> includeId && |list[i].id| > 0)
      && (r.entries[i].answerId.Some? ==> r.entries[i].answerId.value == list[i].id)
  {
    var kept := SliceTo(list, limit);
    if |kept| == 0 then Fallback
    else Items(seq(|kept|, i requires 0 <= i < |kept| =>
      Entry(kept[i].title, kept[i].body, if includeId && |kept[i].id| > 0 then Some(kept[i].id) else None)))
  }

  /** The rendered list never exceeds a positive limit; the has-faq class
      is set exactly when something is rendered. */
  lemma RenderBounded(list: seq<Answer>, limit: int, includeId: bool)
    requires limit > 0
    ensures Render(list, limit, includeId).Items? ==> |Render(list, limit, includeId).entries| <= limit
    ensures Render(list, limit, includeId).Fallback? <==> |list| == 0
  {
  }

  /** Typing in the search field: the trimmed keyword becomes the latest one;
      a keyword longer than two UTF-16 code units shows the clear button and
      schedules a search for it, a shorter one hides the button and renders
      the original list. */
  function OnInput(s: State, value: string, limit: int): (r: (State, Option<string>))
    ensures r.0.latest == Text.Trim(value) && r.0.original == s.original
    ensures Text.Utf16Length(Text.Trim(value)) > MinKeywordLength ==>
      r.1 == Some(Text.Trim(value)) && r.0.clearVisible && r.0.shown == s.shown
    ensures Text.Utf16Length(Text.Trim(value)) <= MinKeywordLength ==>
      r.1 == None && !r.0.clearVisible && r.0.shown == Render(s.original, limit, false)
  {
    var keyword := Text.Trim(value);
    if Text.Utf16Length(keyword) > MinKeywordLength then (s.(latest := keyword, clearVisible := true), Some(keyword))
    else (s.(latest := keyword, clearVisible := false, shown := Render(s.original, limit, false)), None)
  }

  /** A search response is rendered, ids attached, only while its query is
      still the latest keyword. */
  function OnSearchResponse(s: State, query: string, data: seq<Answer>, limit: int): (r: State)
    ensures query != s.latest ==> r == s
    ensures query == s.latest ==> r == s.(shown := Render(data, limit, true))
  {
    if query == s.latest then s.(shown := Render(data, limit, true)) else s
  }

  /** The clear button: the keyword is forgotten, the button hidden and the
      original list rendered. */
  function OnClear(s: State, limit: int): (r: State)
    ensures r.latest == "" && !r.clearVisible && r.original == s.original
    ensures r.shown == Render(s.original, limit, false)
  {
    s.(latest := "", clearVisible := false, shown := Render(s.original, limit, false))
  }

  /** The initial list arrives: it is kept as the original and rendered. */
  function OnListLoaded(s: State, data: seq<Answer>, limit: int): (r: State)
    ensures r.original == data && r.shown == Render(data, limit, false)
    ensures r.latest == s.latest && r.clearVisible == s.clearVisible
  {
    s.(original := data, shown := Render(data, limit, false))
  }

  /** Every scheduled query is a keyword longer than two UTF-16 code units. */
  lemma ScheduledQueriesAreLong(s: State, value: string, limit: int)
    ensures var (_, q) := OnInput(s, value, limit);
      q.Some? ==> Text.Utf16Length(q.value) > MinKeywordLength
  {
  }

  /** A keyword of one emoji and one letter is two characters but three
      UTF-16 code units, so it is searched. */
  lemma AstralKeywordIsSearched(s: State, limit: int)
    ensures OnInput(s, "\U{1F600}a", limit).1 == Some("\U{1F600}a")
  {
    assert Text.Utf16Length("\U{1F600}a") == 3;
  }

  /** After a clear, no pending search can render, whatever it returns, so
      the original list stays shown. */
  lemma ClearDropsPendingSearches(s: State, limit: int, query: string, data: seq<Answer>)
    requires |query| > 0
    ensures OnSearchResponse(OnClear(s, limit), query, data, limit) == OnClear(s, limit)
  {
  }

  /** A response for a keyword typed earlier is dropped once a different
      keyword has been entered. */
  lemma StaleResponseDropped(s: State, value: string, limit: int, query: string, data: seq<Answer>)
    ensures var s' := OnInput(s, value, limit).0;
      query != Text.Trim(value) ==> OnSearchResponse(s', query, data, limit) == s'
  {
  }

  /** A run of keystrokes, each one an `input` event on the search field. */
  function TypeAll(s: State, values: seq<string>, limit: int): (r: State)
    ensures r.original == s.original
    decreases |values|
  {
    if |values| == 0 then s else TypeAll(OnInput(s, values[0], limit).0, values[1..], limit)
  }

  /** After a run of keystrokes the latest keyword is the last one typed,
      trimmed. */
  lemma {:induction false} TypeAllKeepsLastKeyword(s: State, values: seq<string>, limit: int)
    requires |values| > 0
    ensures TypeAll(s, values, limit).latest == Text.Trim(values[|values| - 1])
    decreases |values|
  {
    if |values| > 1 {
      TypeAllKeepsLastKeyword(OnInput(s, values[0], limit).0, values[1..], limit);
    }
  }

  /** Only the search for the last keyword typed can render: a response for
      any earlier keyword arriving after the run is dropped. */
  lemma OnlyLastSearchRenders(s: State, values: seq<string>, limit: int, query: string, data: seq<Answer>)
    requires |values| > 0
    ensures var t := TypeAll(s, values, limit);
      query != Text.Trim(values[|values| - 1]) ==> OnSearchResponse(t, query, data, limit) == t
  {
    TypeAllKeepsLastKeyword(s, values, limit);
  }

  /** The response for the latest keyword is the one shown. */
  lemma LatestResponseShown(s: State, value: string, limit: int, data: seq<Answer>)
    requires Text.Utf16Length(Text.Trim(value)) > MinKeywordLength
    ensures var (s', q) := OnInput(s, value, limit);
      q.Some? && OnSearchResponse(s', q.value, data, limit).shown == Render(data, limit, true)
  {
  }
}

=== FILE: fields.dfy ===
/** `initFields`: a text-like form field carries the is-contain-value class
    exactly while it holds a value; the class is set for every field on
    start and again on each change event. */
module Fields {

  /** A field's current value and its class list. */
  datatype Field = Field(value: string, classes: set<string>)

  const ContainValue := "is-contain-value"

  /** `updateState`: add the class for a non-empty value, remove it otherwise;
      no other class is touched. */
  function UpdateState(f: Field): (r: Field)
    ensures r.value == f.value
    ensures ContainValue in r.classes <==> |f.value| > 0
    ensures r.classes - {ContainValue} == f.classes - {ContainValue}
  {
    if |f.value| > 0 then f.(classes := f.classes + {ContainValue})
    else f.(classes := f.classes - {ContainValue})
  }

  /** The change event: the user's new value, then the class update. */
  function OnChange(f: Field, newValue: string): (r: Field)
    ensures r.value == newValue
    ensures ContainValue in r.classes <==> |newValue| > 0
    ensures r.classes - {ContainValue} == f.classes - {ContainValue}
  {
    UpdateState(f.(value := newValue))
  }

  /** The page start: every field updated. */
  function InitAll(fs: seq<Field>): (r: seq<Field>)
    ensures |r| == |fs|
    ensures forall i :: 0 <= i < |fs| ==> r[i] == UpdateState(fs[i])
  {
    seq(|fs|, i requires 0 <= i < |fs| => UpdateState(fs[i]))
  }

  /** The class reflects the value after any series of change events, and
      updating once more changes nothing. */
  lemma {:induction false} ChangesKeepClassInStep(f: Field, values: seq<string>)
    requires |values| > 0
    ensures var r := Replay(f, values);
      && (ContainValue in r.classes <==> |values[|values| - 1]| > 0)
      && UpdateState(r) == r
      && r.classes - {ContainValue} == f.classes - {ContainValue}
    decreases |values|
  {
    if |values| > 1 {
      ChangesKeepClassInStep(OnChange(f, values[0]), values[1..]);
    }
  }

  /** The field after the change events of `values`, in order. */
  function Replay(f: Field, values: seq<string>): Field
    decreases |values|
  {
    if |values| == 0 then f else Replay(OnChange(f, values[0]), values[1..])
  }
}

=== FILE: filters_sort.dfy ===
/** The collection filter and sort panel: the query string built from the
    panel's inputs (`cFiltersSort.getFilterSortUrl`) and the page's own URL
    parameters kept when the query is replaced (`cFiltersSort.updateFilterSort`).
    URL encoding is not modelled: the strings are the ones `encodeURI` receives. */
module FiltersSort {
  import opened Wrappers
  import Text
  import Seqs

  /** A `name=value` pair: an input of the panel or a URL parameter. */
  datatype Param = Param(name: string, value: string)

  /** A filter checkbox of the panel. */
  datatype Checkbox = Checkbox(param: Param, checked: bool)

  const Separator := "&"
  const SortKey := "sort_by"
  /** The sort value meaning "the collection's own order". */
  const ManualSort := "manual"

  /** `name=value`; never empty. */
  function PairString(p: Param): (s: string)
    ensures |s| > 0
  {
    p.name + "=" + p.value
  }

  /** The `name=value` strings of a list of parameters, in order. */
  function Pairs(ps: seq<Param>): (r: seq<string>)
    ensures |r| == |ps|
    ensures forall i :: 0 <= i < |ps| ==> r[i] == PairString(ps[i])
  {
    if |ps| == 0 then [] else [PairString(ps[0])] + Pairs(ps[1..])
  }

  /** `getPriceRangeSelections`: the number inputs that hold a value. */
  function PriceRangeSelections(inputs: seq<Param>): (r: seq<Param>)
    ensures forall i :: 0 <= i < |r| ==> |r[i].value| > 0 && r[i] in inputs
    ensures forall i :: 0 <= i < |inputs| && |inputs[i].value| > 0 ==> inputs[i] in r
    ensures Seqs.IsSubsequence(r, inputs)
  {
    Seqs.Filter(inputs, (p: Param) => |p.value| > 0)
  }

  /** `getFiltersSelection`: the checked checkboxes that hold a value, in
      document order. */
  function FiltersSelection(boxes: seq<Checkbox>): (r: seq<Param>)
    ensures |r| <= |boxes|
    ensures forall i :: 0 <= i < |r| ==> |r[i].value| > 0 && Checkbox(r[i], true) in boxes
    ensures forall i :: 0 <= i < |boxes| && boxes[i].checked && |boxes[i].param.value| > 0 ==>
      boxes[i].param in r
  {
    if |boxes| == 0 then []
    else
      var rest := FiltersSelection(boxes[1..]);
      if boxes[0].checked && |boxes[0].param.value| > 0 then [boxes[0].param] + rest else rest
  }

  /** A checkbox that contributes to the filter query. */
  predicate Selected(b: Checkbox)
  {
    b.checked && |b.param.value| > 0
  }

  /** The parameters of a list of checkboxes, in order. */
  function ParamsOf(boxes: seq<Checkbox>): (ps: seq<Param>)
    ensures |ps| == |boxes|
    ensures forall i :: 0 <= i < |boxes| ==> ps[i] == boxes[i].param
  {
    seq(|boxes|, i requires 0 <= i < |boxes| => boxes[i].param)
  }

  lemma {:induction false} ParamsOfCons(b: Checkbox, rest: seq<Checkbox>)
    ensures ParamsOf([b] + rest) == [b.param] + ParamsOf(rest)
  {
    var l := ParamsOf([b] + rest);
    var r := [b.param] + ParamsOf(rest);
    assert |l| == |r|;
    assert forall i :: 0 <= i < |l| ==> l[i] == r[i];
  }

  /** The filter selection keeps one pair per selected checkbox, in document
      order and with repetitions: it is the order-preserving filter of the
      selected boxes, mapped to their parameters. */
  lemma {:induction false} FiltersSelectionIsFilter(boxes: seq<Checkbox>)
    ensures FiltersSelection(boxes) == ParamsOf(Seqs.Filter(boxes, Selected))
  {
    if |boxes| == 0 {
      assert Seqs.Filter(boxes, Selected) == [];
    } else {
      FiltersSelectionIsFilter(boxes[1..]);
      var rest := Seqs.Filter(boxes[1..], Selected);
      var tail := FiltersSelection(boxes[1..]);
      assert tail == ParamsOf(rest);
      if Selected(boxes[0]) {
        assert FiltersSelection(boxes) == [boxes[0].param] + tail;
        assert Seqs.Filter(boxes, Selected) == [boxes[0]] + rest;
        ParamsOfCons(boxes[0], rest);
      } else {
        assert FiltersSelection(boxes) == tail;
        assert Seqs.Filter(boxes, Selected) == rest;
      }
    }
  }

  /** `getSortSelection` together with the truthiness test on its result: the
      select's value, unless there is no select, it is `manual`, or it is empty. */
  function SortSelection(select: Option<string>): (r: Option<string>)
    ensures r.Some? <==> select.Some? && select.value != ManualSort && |select.value| > 0
    ensures r.Some? ==> r.value == select.value
  {
    if select.Some? && select.value != ManualSort && |select.value| > 0 then select else None
  }

  /** The `sort_by=value` part, as a list of zero or one strings. */
  function SortPart(select: Option<string>): (r: seq<string>)
    ensures |r| <= 1
    ensures |r| == 1 <==> SortSelection(select).Some?
    ensures |r| == 1 ==> r[0] == SortKey + "=" + select.value
  {
    var s := SortSelection(select);
    if s.Some? then [SortKey + "=" + s.value] else []
  }

  /** A group string kept only when non-empty. */
  function NonEmpty(s: string): (r: seq<string>)
    ensures |r| <= 1 && (|r| == 1 <==> |s| > 0)
    ensures |r| == 1 ==> r[0] == s
  {
    if |s| > 0 then [s] else []
  }

  /** `getFilterSortUrl`: the price-range string, the checkbox-filter string
      and the sort string, each a `&`-join of its pairs, with the empty ones
      dropped and the rest joined by `&`. */
  function FilterSortUrl(priceInputs: seq<Param>, boxes: seq<Checkbox>, select: Option<string>): (url: string)
    ensures |url| == 0 <==>
      |PriceRangeSelections(priceInputs)| == 0 && |FiltersSelection(boxes)| == 0 && SortSelection(select).None?
  {
    var priceString := Text.Join(Pairs(PriceRangeSelections(priceInputs)), Separator);
    var filterString := Text.Join(Pairs(FiltersSelection(boxes)), Separator);
    var groups := NonEmpty(priceString) + NonEmpty(filterString) + SortPart(select);
    Text.JoinNonEmpty(Pairs(PriceRangeSelections(priceInputs)), Separator);
    Text.JoinNonEmpty(Pairs(FiltersSelection(boxes)), Separator);
    Text.JoinNonEmpty(groups, Separator);
    Text.Join(groups, Separator)
  }

  /** A group joined first and kept only when non-empty joins with what
      follows exactly as its parts would. */
  lemma {:induction false} GroupThenRest(a: seq<string>, rest: seq<string>)
    requires forall i :: 0 <= i < |a| ==> |a[i]| > 0
    ensures Text.Join(NonEmpty(Text.Join(a, Separator)) + rest, Separator) == Text.Join(a + rest, Separator)
    ensures |NonEmpty(Text.Join(a, Separator)) + rest| == 0 <==> |a + rest| == 0
  {
    var opt := NonEmpty(Text.Join(a, Separator));
    Text.JoinNonEmpty(a, Separator);
    assert Text.Join(opt, Separator) == Text.Join(a, Separator);
    Text.JoinAppend(opt, rest, Separator);
    Text.JoinAppend(a, rest, Separator);
  }

  /** Two tails with the same join, empty together, give the same join
      after a common head. */
  lemma {:induction false} SameTail(a: seq<string>, x: seq<string>, y: seq<string>)
    requires Text.Join(x, Separator) == Text.Join(y, Separator)
    requires |x| == 0 <==> |y| == 0
    ensures Text.Join(a + x, Separator) == Text.Join(a + y, Separator)
  {
    Text.JoinAppend(a, x, Separator);
    Text.JoinAppend(a, y, Separator);
  }

  /** Joining the joins of non-empty groups, empty groups dropped, is joining
      all their parts. */
  lemma {:induction false} GroupedJoin(a: seq<string>, b: seq<string>, c: seq<string>)
    requires forall i :: 0 <= i < |a| ==> |a[i]| > 0
    requires forall i :: 0 <= i < |b| ==> |b[i]| > 0
    ensures Text.Join(NonEmpty(Text.Join(a, Separator)) + NonEmpty(Text.Join(b, Separator)) + c, Separator) ==
      Text.Join(a + b + c, Separator)
  {
    var optA := NonEmpty(Text.Join(a, Separator));
    var optB := NonEmpty(Text.Join(b, Separator));
    assert optA + optB + c == optA + (optB + c);
    assert a + b + c == a + (b + c);
    GroupThenRest(a, optB + c);
    GroupThenRest(b, c);
    SameTail(a, optB + c, b + c);
  }

  /** The composed query is the single `&`-join of every selected pair: price
      ranges first, then checkbox filters, then `sort_by` when a sort applies;
      grouping them first adds or loses no separator. */
  lemma FilterSortUrlIsFlatJoin(priceInputs: seq<Param>, boxes: seq<Checkbox>, select: Option<string>)
    ensures FilterSortUrl(priceInputs, boxes, select) ==
      Text.Join(Pairs(PriceRangeSelections(priceInputs)) + Pairs(FiltersSelection(boxes)) + SortPart(select), Separator)
  {
    GroupedJoin(Pairs(PriceRangeSelections(priceInputs)), Pairs(FiltersSelection(boxes)), SortPart(select));
  }

  /** A URL parameter survives a filter update unless its key mentions
      `filter` or `sort_by`. */
  predicate Kept(p: Param)
  {
    !Text.Contains(p.name, "filter") && !Text.Contains(p.name, SortKey)
  }

  /** The page's parameters that are carried over, in their original order. */
  function KeptParams(query: seq<Param>): (r: seq<Param>)
    ensures forall i :: 0 <= i < |r| ==> Kept(r[i]) && r[i] in query
    ensures forall i :: 0 <= i < |query| && Kept(query[i]) ==> query[i] in r
    ensures Seqs.IsSubsequence(r, query)
  {
    Seqs.Filter(query, Kept)
  }

  /** The parameter string fetched by `updateFilterSort`: the carried-over
      parameters, then the panel's query, each dropped when empty. */
  function UpdatedParams(query: seq<Param>, urlParamString: string): (r: string)
    ensures |r| == 0 <==> |KeptParams(query)| == 0 && |urlParamString| == 0
  {
    var kept := Text.Join(Pairs(KeptParams(query)), Separator);
    var groups := NonEmpty(kept) + NonEmpty(urlParamString);
    Text.JoinNonEmpty(Pairs(KeptParams(query)), Separator);
    Text.JoinNonEmpty(groups, Separator);
    Text.Join(groups, Separator)
  }

  /** The fetched parameters are the kept pairs followed by the panel's
      query, the panel's query alone when nothing is kept, and the kept pairs
      alone when the query is empty (the clear-all update). */
  lemma UpdatedParamsShape(query: seq<Param>, urlParamString: string)
    ensures |KeptParams(query)| == 0 ==> UpdatedParams(query, urlParamString) == urlParamString
    ensures |urlParamString| > 0 ==>
      UpdatedParams(query, urlParamString) == Text.Join(Pairs(KeptParams(query)) + [urlParamString], Separator)
    ensures |urlParamString| == 0 ==>
      UpdatedParams(query, urlParamString) == Text.Join(Pairs(KeptParams(query)), Separator)
  {
    var a := Pairs(KeptParams(query));
    Text.JoinNonEmpty(a, Separator);
    var optA := NonEmpty(Text.Join(a, Separator));
    assert Text.Join(optA, Separator) == Text.Join(a, Separator);
    Text.JoinAppend(optA, NonEmpty(urlParamString), Separator);
    Text.JoinAppend(a, [urlParamString], Separator);
  }

  /** The parameters carried over from a page that was itself produced by an
      update are carried over again unchanged. */
  lemma KeptParamsIdempotent(query: seq<Param>)
    ensures KeptParams(KeptParams(query)) == KeptParams(query)
  {
    Seqs.FilterIdempotent(query, Kept);
  }
}

=== FILE: infinite_scroll.dfy ===
/** The infinite-scroll counter of collection pages (`cInfiniteScroll`): the
    number of products viewed grows by a page per append, capped at the
    collection's size, and the pagination is flagged once the cap is reached. */
module InfiniteScroll {

  /** `maxItemCount` and `paginateCount` from the pagination element, the
      current viewed count and the is-max-items flag. */
  datatype Counter = Counter(maxItems: int, paginate: int, viewed: int, isMax: bool)

  /** Counting starts with one page viewed. */
  function Init(maxItems: int, paginate: int): (c: Counter)
    ensures c.viewed == paginate && c.maxItems == maxItems && c.paginate == paginate && !c.isMax
  {
    Counter(maxItems, paginate, paginate, false)
  }

  /** The `append` event: one more page viewed, never beyond the maximum;
      the flag is set (and stays set) once the count equals the maximum. */
  function Append(c: Counter): (r: Counter)
    ensures r.maxItems == c.maxItems && r.paginate == c.paginate
    ensures r.viewed <= c.maxItems && r.viewed <= c.viewed + c.paginate
    ensures r.viewed == c.viewed + c.paginate || r.viewed == c.maxItems
    ensures r.isMax <==> c.isMax || r.viewed == c.maxItems
  {
    var viewed := if c.viewed + c.paginate < c.maxItems then c.viewed + c.paginate else c.maxItems;
    c.(viewed := viewed, isMax := c.isMax || viewed == c.maxItems)
  }

  /** The counter after `k` appends. */
  function AppendN(c: Counter, k: nat): Counter
    decreases k
  {
    if k == 0 then c else AppendN(Append(c), k - 1)
  }

  /** With a non-negative page size, `k` appends after the start have viewed
      `min(paginate * (k + 1), maxItems)` products, and the flag is up exactly
      when that reaches the maximum (for a positive append count). */
  lemma {:induction false} AppendNCount(c: Counter, k: nat)
    requires c.paginate >= 0 && c.viewed <= c.maxItems && !c.isMax
    ensures var r := AppendN(c, k);
      var expected := if c.viewed + k * c.paginate < c.maxItems then c.viewed + k * c.paginate else c.maxItems;
      r.viewed == expected && (r.isMax <==> k > 0 && expected == c.maxItems)
    decreases k
  {
    if k > 0 {
      var n := Append(c);
      if n.isMax {
        AppendNStaysMax(n, k - 1);
      } else {
        AppendNCount(n, k - 1);
        assert n.viewed == c.viewed + c.paginate;
        assert n.viewed + (k - 1) * c.paginate == c.viewed + k * c.paginate;
      }
    }
  }

  /** Once the maximum is reached, appends change nothing. */
  lemma {:induction false} AppendNStaysMax(c: Counter, k: nat)
    requires c.paginate >= 0 && c.viewed == c.maxItems && c.isMax
    ensures AppendN(c, k) == c
    decreases k
  {
    if k > 0 {
      assert Append(c) == c;
      AppendNStaysMax(c, k - 1);
    }
  }
}

=== FILE: item_quantity.dfy ===
/** The quantity stepper of a product form or cart line: two buttons around a
    numeric input bounded by its `min` and `max` attributes. */
module ItemQuantity {

  /** Which button was pressed; `Refresh` is a call made without a direction,
      which only recomputes the button states. */
  datatype Trigger = Increase | Decrease | Refresh

  /** The input's value and its `min`/`max` attributes, already parsed. */
  datatype Stepper = Stepper(value: int, min: int, max: int)

  /** The new value, the two buttons' `disabled` flags, and whether a
      `change` event is dispatched. */
  datatype StepResult = StepResult(value: int, decreaseDisabled: bool, increaseDisabled: bool, changed: bool)

  function Min(a: int, b: int): int { if a <= b then a else b }

  function Max(a: int, b: int): int { if a >= b then a else b }

  /** One press of a stepper button. */
  function Step(s: Stepper, t: Trigger): (r: StepResult)
    ensures t == Refresh ==> r.value == s.value
    ensures t == Increase ==> r.value == (if s.value < s.max then s.value + 1 else s.max)
    ensures t == Decrease ==> r.value == (if s.value > s.min then s.value - 1 else s.min)
    ensures s.min <= s.value <= s.max ==> s.min <= r.value <= s.max && -1 <= r.value - s.value <= 1
    ensures r.decreaseDisabled <==> r.value <= s.min
    ensures r.increaseDisabled <==> r.value >= s.max
    ensures r.changed <==> r.value != s.value
  {
    var change :=
      match t
      case Increase => Min(1, s.max - s.value)
      case Decrease => Max(-1, s.min - s.value)
      case Refresh => 0;
    var v := s.value + change;
    StepResult(v, v <= s.min, v >= s.max, v != s.value)
  }

  /** The value after pressing the same button `n` times. */
  function Press(s: Stepper, t: Trigger, n: nat): int
    decreases n
  {
    if n == 0 then s.value else Press(s.(value := Step(s, t).value), t, n - 1)
  }

  /** Pressing "increase" `n` times climbs one step at a time and stops at `max`. */
  lemma {:induction false} PressIncrease(s: Stepper, n: nat)
    ensures Press(s, Increase, n) == if n == 0 then s.value else Min(s.value + n, s.max)
    decreases n
  {
    if n > 0 {
      PressIncrease(s.(value := Step(s, Increase).value), n - 1);
    }
  }

  /** Pressing "decrease" `n` times descends one step at a time and stops at `min`. */
  lemma {:induction false} PressDecrease(s: Stepper, n: nat)
    ensures Press(s, Decrease, n) == if n == 0 then s.value else Max(s.value - n, s.min)
    decreases n
  {
    if n > 0 {
      PressDecrease(s.(value := Step(s, Decrease).value), n - 1);
    }
  }
}

=== FILE: loader.dfy ===
/** The page-load progress bar (`loader`): a bar that creeps forward by a
    random increment each second until it completes, then settles off
    screen. Timers are not modelled: each tick of the interval and the
    settle timeout are explicit steps, and the random values are inputs. */
module Loader {
  import opened Wrappers

  /** The recorded progress (`data-progress`, absent on a new bar), whether
      an interval is ticking, and whether a settle timeout is pending. */
  datatype Bar = Bar(progress: Option<int>, ticking: bool, settlePending: bool)

  const Done := 100
  /** The value the settled bar is left at. */
  const Settled := 101

  /** `loader.new`: a bar with no progress. */
  const Fresh := Bar(None, false, false)

  /** `updateProgress` on an existing bar: any previous interval is replaced
      by a new one; the starting value is recorded only when no progress is. */
  function UpdateProgress(b: Bar, start: int): (r: Bar)
    ensures r.ticking && r.settlePending == b.settlePending
    ensures b.progress.Some? ==> r.progress == b.progress
    ensures b.progress.None? ==> r.progress == Some(start)
  {
    b.(progress := if b.progress.Some? then b.progress else Some(start), ticking := true)
  }

  /** `complete`: the bar jumps to 100 and a settle is scheduled. */
  function Complete(b: Bar): (r: Bar)
    ensures r.progress == Some(Done) && r.settlePending && r.ticking == b.ticking
  {
    b.(progress := Some(Done), settlePending := true)
  }

  /** The settle timeout: the bar is parked at 101 and the recorded interval,
      whichever it is by then, is cleared. */
  function Settle(b: Bar): (r: Bar)
    ensures r.progress == Some(Settled) && !r.ticking && !r.settlePending
  {
    Bar(Some(Settled), false, false)
  }

  /** One interval tick with increment `inc`: the bar completes (and its
      interval stops) once the new progress reaches 100, and advances
      otherwise. A stopped bar, or one without a number, does not change. */
  function Tick(b: Bar, inc: int): (r: Bar)
    ensures !b.ticking || b.progress.None? ==> r == b
    ensures b.ticking && b.progress.Some? && b.progress.value + inc >= Done ==>
      r.progress == Some(Done) && !r.ticking && r.settlePending
    ensures b.ticking && b.progress.Some? && b.progress.value + inc < Done ==>
      r == b.(progress := Some(b.progress.value + inc))
  {
    if !b.ticking || b.progress.None? then b
    else if b.progress.value + inc >= Done then Complete(b).(ticking := false)
    else b.(progress := Some(b.progress.value + inc))
  }

  /** The bar after the ticks with the given increments. */
  function TickAll(b: Bar, incs: seq<int>): Bar
    decreases |incs|
  {
    if |incs| == 0 then b else TickAll(Tick(b, incs[0]), incs[1..])
  }

  /** With increments of at least 5, a ticking bar at `p` has completed and
      stopped after any `n >= 1` ticks with `5 * n >= 100 - p`. */
  lemma {:induction false} TicksComplete(b: Bar, incs: seq<int>)
    requires b.ticking && b.progress.Some?
    requires |incs| >= 1 && 5 * |incs| >= Done - b.progress.value
    requires forall i :: 0 <= i < |incs| ==> incs[i] >= 5
    ensures TickAll(b, incs).progress == Some(Done) && !TickAll(b, incs).ticking
    decreases |incs|
  {
    var n := Tick(b, incs[0]);
    if n.ticking {
      assert n.progress.value >= b.progress.value + 5;
      TicksComplete(n, incs[1..]);
    } else {
      StoppedStays(n, incs[1..]);
    }
  }

  /** Ticks of a stopped bar change nothing. */
  lemma {:induction false} StoppedStays(b: Bar, incs: seq<int>)
    requires !b.ticking
    ensures TickAll(b, incs) == b
    decreases |incs|
  {
    if |incs| > 0 {
      StoppedStays(b, incs[1..]);
    }
  }

  /** The recorded progress is never reset: once a bar has settled at 101,
      the next load keeps 101 and its very first tick completes it. */
  lemma LaterLoadsCompleteAtOnce(b: Bar, start: int, inc: int)
    requires inc >= 0
    ensures var r := Tick(UpdateProgress(Settle(b), start), inc);
      r.progress == Some(Done) && !r.ticking
  {
  }

  /** The first load starts from its random value and creeps forward. */
  lemma FirstLoadStartsAtStart(start: int, inc: int)
    requires start + inc < Done
    ensures Tick(UpdateProgress(Fresh, start), inc).progress == Some(start + inc)
  {
  }
}

=== FILE: page_transition.dfy ===
/** Link handling of `initPageTransition`: the three-way classification of a
    link's href, the attributes forced onto external links, and the click
    that turns an internal link into a page transition. Hrefs are the
    strings the elements report; URL resolution is not modelled. */
module PageTransition {
  import opened Wrappers
  import Text

  datatype HrefType = Anchor | Internal | External

  /** A link element: its href, rel and target attributes (empty when absent). */
  datatype Link = Link(href: string, rel: string, target: string)

  /** The outcome of a click: the root element's classes and the location
      the page is sent to, if the click is intercepted. */
  datatype Click = Click(rootClasses: set<string>, navigateTo: Option<string>)

  const Blank := "_blank"
  const NoOpener := "noopener"
  const Leaving := "is-leaving"
  /** The overlay classes a page transition removes from the root element. */
  const Overlays: set<string> := {"is-header-sticky", "is-menu-active", "is-mobile-menu-active"}

  /** A link into the current page: it starts with `#`, or it equals the
      page's URL once both fragments are cut off. */
  predicate IsAnchorLink(href: string, pageUrl: string)
  {
    Text.StartsWith(href, "#") || Text.BeforeFirst(href, '#') == Text.BeforeFirst(pageUrl, '#')
  }

  /** A link within the site: a root-relative path or one mentioning the site's URL. */
  predicate IsInternalLink(href: string, siteUrl: string)
  {
    Text.StartsWith(href, "/") || Text.Contains(href, siteUrl)
  }

  /** `getHrefType`: anchor before internal before external. */
  function GetHrefType(href: string, pageUrl: string, siteUrl: string): (t: HrefType)
    ensures t == Anchor <==> IsAnchorLink(href, pageUrl)
    ensures t == Internal <==> !IsAnchorLink(href, pageUrl) && IsInternalLink(href, siteUrl)
    ensures t == External <==> !IsAnchorLink(href, pageUrl) && !IsInternalLink(href, siteUrl)
  {
    if IsAnchorLink(href, pageUrl) then Anchor
    else if IsInternalLink(href, siteUrl) then Internal
    else External
  }

  /** The part before the first `#` of `u + "#" + frag` is `u` when `u` has none. */
  lemma BeforeFragment(u: string, frag: string)
    requires '#' !in u
    ensures Text.BeforeFirst(u + "#" + frag, '#') == u
  {
    var s := u + "#" + frag;
    var r := Text.BeforeFirst(s, '#');
    assert s[|u|] == '#';
    assert r == s[..|u|] == u;
  }

  /** A link to a fragment of the current page is an anchor, even when it
      is also an in-site URL. */
  lemma FragmentOfCurrentPageIsAnchor(pageUrl: string, frag: string, siteUrl: string)
    requires '#' !in pageUrl
    ensures GetHrefType(pageUrl + "#" + frag, pageUrl, siteUrl) == Anchor
  {
    BeforeFragment(pageUrl, frag);
    BeforeFragment(pageUrl, "");
    assert pageUrl + "#" + "" != pageUrl;
    var b := Text.BeforeFirst(pageUrl, '#');
    assert |b| == |pageUrl|;
  }

  /** The external-link defaults: `rel=noopener` and, when no target is set,
      `target=_blank`; other links are left alone. */
  function ApplyDefaults(l: Link, pageUrl: string, siteUrl: string): (r: Link)
    ensures r.href == l.href
    ensures GetHrefType(l.href, pageUrl, siteUrl) != External ==> r == l
    ensures GetHrefType(l.href, pageUrl, siteUrl) == External ==>
      r.rel == NoOpener && (if |l.target| > 0 then r.target == l.target else r.target == Blank)
  {
    if GetHrefType(l.href, pageUrl, siteUrl) == External then
      l.(rel := NoOpener, target := if |l.target| > 0 then l.target else Blank)
    else l
  }

  /** Applying the defaults twice is applying them once. */
  lemma ApplyDefaultsIdempotent(l: Link, pageUrl: string, siteUrl: string)
    ensures ApplyDefaults(ApplyDefaults(l, pageUrl, siteUrl), pageUrl, siteUrl) == ApplyDefaults(l, pageUrl, siteUrl)
  {
  }

  /** `isNewTab` as written: the element itself is compared with the string
      `_blank`, which converts the element to its href, so the test holds
      only for a link whose href is literally `_blank`. */
  predicate IsNewTab(l: Link)
  {
    l.href == Blank
  }

  /** A click on a link: an internal link clicked without a modifier key
      and not judged to open a new tab is intercepted: the overlay classes go,
      is-leaving is added and the page is sent to the link's href. */
  function OnLinkClick(rootClasses: set<string>, l: Link, keyPressed: bool, pageUrl: string, siteUrl: string): (c: Click)
    ensures c.navigateTo.Some? <==>
      GetHrefType(l.href, pageUrl, siteUrl) == Internal && !IsNewTab(l) && !keyPressed
    ensures c.navigateTo.None? ==> c.rootClasses == rootClasses
    ensures c.navigateTo.Some? ==>
      && c.navigateTo.value == l.href
      && c.rootClasses == (rootClasses - Overlays) + {Leaving}
  {
    if GetHrefType(l.href, pageUrl, siteUrl) == Internal && !IsNewTab(l) && !keyPressed then
      Click((rootClasses - Overlays) + {Leaving}, Some(l.href))
    else Click(rootClasses, None)
  }

  /** A link to a page of the site, as the browser reports it: the site's
      URL followed by a path, not a fragment of the current page. */
  predicate SitePageLink(href: string, pageUrl: string, siteUrl: string)
  {
    Text.StartsWith(href, siteUrl) && !IsAnchorLink(href, pageUrl)
  }

  /** An absolute link to another page of the site is internal. */
  lemma SiteLinkIsInternal(path: string, pageUrl: string, siteUrl: string)
    requires SitePageLink(siteUrl + path, pageUrl, siteUrl)
    ensures GetHrefType(siteUrl + path, pageUrl, siteUrl) == Internal
  {
  }

  /** The target attribute is never consulted: a link to another page of the
      site with `target=_blank`, clicked without a modifier, still navigates
      the current tab. */
  lemma BlankTargetStillIntercepted(rootClasses: set<string>, path: string, pageUrl: string, siteUrl: string)
    requires SitePageLink(siteUrl + path, pageUrl, siteUrl) && siteUrl + path != Blank
    ensures var c := OnLinkClick(rootClasses, Link(siteUrl + path, "", Blank), false, pageUrl, siteUrl);
      c.navigateTo == Some(siteUrl + path) && Leaving in c.rootClasses
      && forall o :: o in Overlays ==> o !in c.rootClasses
  {
    SiteLinkIsInternal(path, pageUrl, siteUrl);
  }
}

=== FILE: price.dfy ===
/** `global.sanitizePrice`: for stores whose money format uses a comma as the
    decimal separator, every `.` becomes `,` and every `,` becomes `.`, so
    that the price reads in the dot-decimal convention. */
module Price {
  import Text

  /** The money-format placeholder that selects comma-decimal formatting. */
  const CommaFormat := "amount_with_comma_separator"

  /** The replacement for one matched character: `,` for `.` and `.` for `,`. */
  function SwitchChar(c: char): char
  {
    if c == ',' then '.' else if c == '.' then ',' else c
  }

  /** Every `.` and `,` swapped, every other character kept. */
  function SwapSeparators(s: string): (r: string)
    ensures |r| == |s|
    ensures forall i :: 0 <= i < |s| ==> r[i] == SwitchChar(s[i])
  {
    if |s| == 0 then [] else [SwitchChar(s[0])] + SwapSeparators(s[1..])
  }

  /** The price string as given, or with separators swapped when the
      store's money format contains the comma placeholder. */
  function SanitizePrice(moneyFormat: string, s: string): (r: string)
    ensures |r| == |s|
    ensures !Text.Contains(moneyFormat, CommaFormat) ==> r == s
    ensures Text.Contains(moneyFormat, CommaFormat) ==> forall i :: 0 <= i < |s| ==>
      && (s[i] == '.' <==> r[i] == ',')
      && (s[i] == ',' <==> r[i] == '.')
      && (s[i] != '.' && s[i] != ',' ==> r[i] == s[i])
  {
    if Text.Contains(moneyFormat, CommaFormat) then SwapSeparators(s) else s
  }

  /** Sanitizing twice under the same format gives back the original string. */
  lemma SanitizeInvolution(moneyFormat: string, s: string)
    ensures SanitizePrice(moneyFormat, SanitizePrice(moneyFormat, s)) == s
  {
    var r := SanitizePrice(moneyFormat, SanitizePrice(moneyFormat, s));
    assert forall i :: 0 <= i < |s| ==> r[i] == s[i];
  }

  /** "1.234,56" in a comma-decimal store reads "1,234.56". */
  lemma SanitizeExample()
    ensures SanitizePrice("{{" + CommaFormat + "}} EUR", "1.234,56") == "1,234.56"
  {
    var f := "{{" + CommaFormat + "}} EUR";
    Text.ContainsAt(f, CommaFormat);
    assert Text.OccursAt(f, CommaFormat, 2);
    var r := SanitizePrice(f, "1.234,56");
    assert |r| == 8;
    assert forall i :: 0 <= i < 8 ==> r[i] == "1,234.56"[i];
  }
}

=== FILE: product_form.dfy ===
/** The product form's variant logic: resolving the selected variant by its
    composite title, bounding the quantity by the variant's inventory, the
    submit button's availability, and marking sold-out option combinations. */
module ProductForm {
  import opened Wrappers
  import opened Text
  import ItemQuantity
  import Seqs

  /** One entry of the form's embedded variant catalogue. */
  datatype Variant = Variant(id: string, title: string, inventory: int)

  /** One option of a variant group: a pill (radio input) or a dropdown
      `<option>`. `text` is the option's visible text. */
  datatype Choice = Choice(value: string, checked: bool, disabled: bool, text: string)

  /** A `.js-variant-group`: pills, or one dropdown whose options are `choices`. */
  datatype Group = Group(isDropdown: bool, choices: seq<Choice>)

  /** A `.js-variant-selector` element as the selection pass reads it. */
  datatype Selector = Pill(value: string, checked: bool) | Dropdown(value: string)

  /** The result of `saveVariantSelection`: the chosen option values, the
      index of the matching variant (-1 when none) and the variant itself. */
  datatype Selection = Selection(titles: seq<string>, index: int, variant: Option<Variant>)

  /** Option values are joined with this separator to form a variant title. */
  const TitleSeparator := " / "

  const SoldOutSuffix := " - sold out"

  /** The value of the first checked choice, if any. */
  function FirstChecked(choices: seq<Choice>): (r: Option<string>)
    ensures r.None? <==> forall i :: 0 <= i < |choices| ==> !choices[i].checked
    ensures r.Some? ==> exists i :: 0 <= i < |choices| && choices[i].checked && choices[i].value == r.value
  {
    if |choices| == 0 then None
    else if choices[0].checked then Some(choices[0].value)
    else FirstChecked(choices[1..])
  }

  /** The selectors of the form in document order: every pill of a pill group,
      and one value per dropdown (its selected option's value, "" if none). */
  function Selectors(groups: seq<Group>): seq<Selector>
  {
    if |groups| == 0 then []
    else
      var g := groups[0];
      var here :=
        if g.isDropdown then [Dropdown(FirstChecked(g.choices).GetOr(""))]
        else seq(|g.choices|, i requires 0 <= i < |g.choices| => Pill(g.choices[i].value, g.choices[i].checked));
      here + Selectors(groups[1..])
  }

  /** The title a selector contributes: a checked pill's value or a dropdown's
      value, provided it is non-empty. */
  function Chosen(s: Selector): Option<string>
  {
    match s
    case Pill(v, c) => if c && v != "" then Some(v) else None
    case Dropdown(v) => if v != "" then Some(v) else None
  }

  /** The option values the form has chosen, in selector order. */
  function SelectedTitles(selectors: seq<Selector>): (titles: seq<string>)
    ensures |titles| <= |selectors|
    ensures forall i :: 0 <= i < |titles| ==> titles[i] != ""
    ensures |titles| == |selectors| <==> forall i :: 0 <= i < |selectors| ==> Chosen(selectors[i]).Some?
  {
    if |selectors| == 0 then []
    else
      match Chosen(selectors[0])
      case Some(t) => [t] + SelectedTitles(selectors[1..])
      case None => SelectedTitles(selectors[1..])
  }

  /** The selector contributes a title. */
  predicate HasChoice(s: Selector)
  {
    Chosen(s).Some?
  }

  /** The titles are exactly the choices of the selectors that have one, in
      selector order: the `i`-th title is the choice of the `i`-th selector
      that has one. */
  lemma {:induction false} SelectedTitlesAreChosen(selectors: seq<Selector>)
    ensures var chosen := Seqs.Filter(selectors, HasChoice);
      |SelectedTitles(selectors)| == |chosen| &&
      forall i :: 0 <= i < |chosen| ==> Chosen(chosen[i]) == Some(SelectedTitles(selectors)[i])
  {
    if |selectors| > 0 {
      var rest := selectors[1..];
      SelectedTitlesAreChosen(rest);
      var chosen := Seqs.Filter(selectors, HasChoice);
      var titles := SelectedTitles(selectors);
      if HasChoice(selectors[0]) {
        assert chosen == [selectors[0]] + Seqs.Filter(rest, HasChoice);
        assert titles == [Chosen(selectors[0]).value] + SelectedTitles(rest);
        forall i | 0 <= i < |chosen|
          ensures Chosen(chosen[i]) == Some(titles[i])
        {
          if i > 0 {
            assert chosen[i] == Seqs.Filter(rest, HasChoice)[i - 1];
            assert titles[i] == SelectedTitles(rest)[i - 1];
          }
        }
      } else {
        assert chosen == Seqs.Filter(rest, HasChoice);
        assert titles == SelectedTitles(rest);
      }
    }
  }

  /** `saveVariantSelection`: the first variant whose title is exactly the
      chosen values joined with " / ", or none. */
  function SaveVariantSelection(groups: seq<Group>, variants: seq<Variant>): (s: Selection)
    ensures s.titles == SelectedTitles(Selectors(groups))
    ensures s.index == -1 <==> forall j :: 0 <= j < |variants| ==> variants[j].title != Join(s.titles, TitleSeparator)
    ensures s.index >= 0 ==> s.index < |variants| && s.variant == Some(variants[s.index])
    ensures s.index >= 0 ==> variants[s.index].title == Join(s.titles, TitleSeparator)
    ensures s.index >= 0 ==> forall j :: 0 <= j < s.index ==> variants[j].title != Join(s.titles, TitleSeparator)
    ensures s.index == -1 <==> s.variant.None?
  {
    var titles := SelectedTitles(Selectors(groups));
    var title := Join(titles, TitleSeparator);
    var i := Seqs.FindIndex(variants, (v: Variant) => v.title == title);
    Selection(titles, i, if i >= 0 then Some(variants[i]) else None)
  }

  /** The product form's bound on the quantity when the variant changes: the
      inventory caps the quantity, except that an inventory of 0 leaves it alone. */
  function ClampToInventory(quantity: int, inventory: int): (q: int)
    ensures inventory != 0 ==> q == ItemQuantity.Min(quantity, inventory)
    ensures inventory == 0 ==> q == quantity
  {
    if quantity > inventory && inventory != 0 then inventory else quantity
  }

  /** `updateQuantity`: the stepper's `max` becomes the inventory, the value is
      clamped, and the stepper recomputes its buttons without a direction. */
  function UpdateQuantity(quantity: ItemQuantity.Stepper, v: Variant): (r: ItemQuantity.StepResult)
    ensures v.inventory != 0 ==> r.value == ItemQuantity.Min(quantity.value, v.inventory)
    ensures v.inventory == 0 ==> r.value == quantity.value
    ensures r.increaseDisabled <==> r.value >= v.inventory
    ensures r.decreaseDisabled <==> r.value <= quantity.min
    ensures !r.changed
  {
    var clamped := ClampToInventory(quantity.value, v.inventory);
    ItemQuantity.Step(ItemQuantity.Stepper(clamped, quantity.min, v.inventory), ItemQuantity.Refresh)
  }

  /** `updateFormSubmitState`: the form is available, and its submit button
      enabled, exactly when the variant has stock. */
  function SubmitState(v: Variant): (r: (bool, bool))
    ensures r.0 <==> v.inventory > 0
    ensures r.1 <==> !r.0
  {
    if v.inventory <= 0 then (false, true) else (true, false)
  }

  /** A group's current selection: its first checked choice, when non-empty. */
  function GroupSelection(g: Group): (r: Option<string>)
    ensures r.Some? ==> r.value != ""
  {
    match FirstChecked(g.choices)
    case Some(v) => if v != "" then Some(v) else None
    case None => None
  }

  /** Every group's selection, or `None` when some group has none. */
  function Selections(groups: seq<Group>): (r: Option<seq<string>>)
    ensures r.Some? <==> forall i :: 0 <= i < |groups| ==> GroupSelection(groups[i]).Some?
    ensures r.Some? ==> |r.value| == |groups|
    ensures r.Some? ==> forall i :: 0 <= i < |groups| ==> r.value[i] == GroupSelection(groups[i]).value
  {
    if |groups| == 0 then Some([])
    else
      match GroupSelection(groups[0])
      case None => None
      case Some(v) =>
        match Selections(groups[1..])
        case None => None
        case Some(rest) => Some([v] + rest)
  }

  /** Some variant with stock has exactly this title. */
  function InStock(variants: seq<Variant>, title: string): (b: bool)
    ensures b <==> exists j :: 0 <= j < |variants| && variants[j].inventory > 0 && variants[j].title == title
  {
    if |variants| == 0 then false
    else (variants[0].inventory > 0 && variants[0].title == title) || InStock(variants[1..], title)
  }

  /** An unselected choice, re-evaluated: disabled when its combination is
      not in stock; a dropdown option's text gains the sold-out suffix. */
  function MarkChoice(c: Choice, isDropdown: bool, inStock: bool): Choice
  {
    if c.checked then c
    else Choice(c.value, c.checked, !inStock,
                if isDropdown then c.value + (if inStock then "" else SoldOutSuffix) else c.text)
  }

  function MarkGroup(g: Group, gi: nat, sels: seq<string>, variants: seq<Variant>): Group
    requires gi < |sels|
  {
    Group(g.isDropdown, seq(|g.choices|, ci requires 0 <= ci < |g.choices| =>
      MarkChoice(g.choices[ci], g.isDropdown,
                 InStock(variants, Join(sels[gi := g.choices[ci].value], TitleSeparator)))))
  }

  /** `updateVariantDisabledState`: with at least two groups, all selected,
      every unselected choice is disabled exactly when no in-stock variant has
      the title of the current selection with that choice substituted in its
      group. Otherwise nothing changes. */
  function UpdateVariantDisabledState(groups: seq<Group>, variants: seq<Variant>): (r: seq<Group>)
    ensures |r| == |groups|
    ensures |groups| <= 1 || Selections(groups).None? ==> r == groups
    ensures forall gi :: 0 <= gi < |groups| ==>
      r[gi].isDropdown == groups[gi].isDropdown && |r[gi].choices| == |groups[gi].choices|
    ensures forall gi, ci :: 0 <= gi < |groups| && 0 <= ci < |groups[gi].choices| ==>
      r[gi].choices[ci].value == groups[gi].choices[ci].value &&
      r[gi].choices[ci].checked == groups[gi].choices[ci].checked
    ensures forall gi, ci :: 0 <= gi < |groups| && 0 <= ci < |groups[gi].choices| && groups[gi].choices[ci].checked ==>
      r[gi].choices[ci] == groups[gi].choices[ci]
    ensures |groups| > 1 && Selections(groups).Some? ==>
      forall gi, ci :: 0 <= gi < |groups| && 0 <= ci < |groups[gi].choices| && !groups[gi].choices[ci].checked ==>
        (r[gi].choices[ci].disabled <==>
          !exists j :: 0 <= j < |variants| && variants[j].inventory > 0 &&
            variants[j].title == Join(Selections(groups).value[gi := groups[gi].choices[ci].value], TitleSeparator))
    ensures |groups| > 1 && Selections(groups).Some? ==>
      forall gi, ci ::
        (0 <= gi < |groups| && 0 <= ci < |groups[gi].choices| &&
         !groups[gi].choices[ci].checked && groups[gi].isDropdown) ==>
          r[gi].choices[ci].text == groups[gi].choices[ci].value + (if r[gi].choices[ci].disabled then SoldOutSuffix else "")
    ensures forall gi, ci :: 0 <= gi < |groups| && 0 <= ci < |groups[gi].choices| && !groups[gi].isDropdown ==>
      r[gi].choices[ci].text == groups[gi].choices[ci].text
  {
    if |groups| <= 1 then groups
    else
      match Selections(groups)
      case None => groups
      case Some(sels) =>
        seq(|groups|, gi requires 0 <= gi < |groups| => MarkGroup(groups[gi], gi, sels, variants))
  }
}

=== FILE: seqs.dfy ===
/** Order-preserving selection over sequences: the `Array.prototype.filter`
    the scripts apply to element lists, URL parameters and product lists. */
module Seqs {

  /** `r` is `s` with some elements deleted: the elements of `r` occur in
      `s` in the same relative order. */
  predicate IsSubsequence<T(==)>(r: seq<T>, s: seq<T>)
    decreases |s|
  {
    if |r| == 0 then true
    else if |s| == 0 then false
    else (r[0] == s[0] && IsSubsequence(r[1..], s[1..])) || IsSubsequence(r, s[1..])
  }

  /** The elements of `s` that satisfy `keep`, in their original order. */
  function Filter<T(==)>(s: seq<T>, keep: T -> bool): (r: seq<T>)
    ensures |r| <= |s|
    ensures IsSubsequence(r, s)
    ensures forall i :: 0 <= i < |r| ==> r[i] in s && keep(r[i])
    ensures forall i :: 0 <= i < |s| && keep(s[i]) ==> s[i] in r
  {
    if |s| == 0 then []
    else
      var rest := Filter(s[1..], keep);
      if keep(s[0]) then
        assert ([s[0]] + rest)[1..] == rest;
        [s[0]] + rest
      else rest
  }

  /** Filtering distributes over concatenation, which is what "survivors
      keep their relative order" means. */
  lemma {:induction false} FilterAppend<T>(a: seq<T>, b: seq<T>, keep: T -> bool)
    ensures Filter(a + b, keep) == Filter(a, keep) + Filter(b, keep)
  {
    if |a| == 0 {
      assert a + b == b;
    } else {
      assert (a + b)[0] == a[0];
      assert (a + b)[1..] == a[1..] + b;
      FilterAppend(a[1..], b, keep);
    }
  }

  /** Filtering twice with the same test changes nothing further. */
  lemma {:induction false} FilterIdempotent<T>(s: seq<T>, keep: T -> bool)
    ensures Filter(Filter(s, keep), keep) == Filter(s, keep)
  {
    if |s| > 0 {
      FilterIdempotent(s[1..], keep);
      if keep(s[0]) {
        var t := Filter(s, keep);
        assert t == [s[0]] + Filter(s[1..], keep);
        assert t[0] == s[0] && t[1..] == Filter(s[1..], keep);
        assert Filter(t, keep) == [t[0]] + Filter(t[1..], keep);
      } else {
        assert Filter(s, keep) == Filter(s[1..], keep);
      }
    }
  }

  /** A sequence whose elements all pass is its own filter. */
  lemma {:induction false} FilterKeepsAll<T>(s: seq<T>, keep: T -> bool)
    requires forall i :: 0 <= i < |s| ==> keep(s[i])
    ensures Filter(s, keep) == s
  {
    if |s| > 0 {
      FilterKeepsAll(s[1..], keep);
    }
  }

  /** The concatenation of a list of lists, as `Array.prototype.flat()`. */
  function Flatten<T>(ss: seq<seq<T>>): (r: seq<T>)
    ensures |r| == 0 <==> forall i :: 0 <= i < |ss| ==> |ss[i]| == 0
    ensures forall i, j :: 0 <= i < |ss| && 0 <= j < |ss[i]| ==> ss[i][j] in r
    ensures forall k :: 0 <= k < |r| ==> exists i :: 0 <= i < |ss| && r[k] in ss[i]
  {
    if |ss| == 0 then [] else ss[0] + Flatten(ss[1..])
  }

  /** `findIndex`: the position of the first element passing `p`, or -1. */
  function FindIndex<T>(s: seq<T>, p: T -> bool): (i: int)
    ensures -1 <= i < |s|
    ensures i >= 0 ==> p(s[i]) && forall j :: 0 <= j < i ==> !p(s[j])
    ensures i == -1 <==> forall j :: 0 <= j < |s| ==> !p(s[j])
  {
    if |s| == 0 then -1
    else if p(s[0]) then 0
    else
      var k := FindIndex(s[1..], p);
      if k < 0 then -1 else k + 1
  }

  /** Filtering with two tests that agree on every element gives the same result. */
  lemma {:induction false} FilterAgree<T>(s: seq<T>, keep: T -> bool, keep': T -> bool)
    requires forall i :: 0 <= i < |s| ==> keep(s[i]) == keep'(s[i])
    ensures Filter(s, keep) == Filter(s, keep')
  {
    if |s| > 0 {
      FilterAgree(s[1..], keep, keep');
    }
  }

  /** Filtering each list and then flattening is flattening and then filtering. */
  lemma {:induction false} FilterFlatten<T>(ss: seq<seq<T>>, keep: T -> bool)
    ensures Flatten(seq(|ss|, i requires 0 <= i < |ss| => Filter(ss[i], keep))) == Filter(Flatten(ss), keep)
  {
    if |ss| > 0 {
      var each := seq(|ss|, i requires 0 <= i < |ss| => Filter(ss[i], keep));
      var rest := seq(|ss| - 1, i requires 0 <= i < |ss| - 1 => Filter(ss[1..][i], keep));
      assert each[1..] == rest;
      FilterFlatten(ss[1..], keep);
      FilterAppend(ss[0], Flatten(ss[1..]), keep);
    }
  }
}

=== FILE: text.dfy ===
/** String helpers with the meaning of the JavaScript built-ins the storefront
    scripts use: `Array.prototype.join`, `startsWith`, `includes`,
    `split(c)[0]`, `trim` and decimal number printing. Strings are `seq<char>`. */
module Text {

  /** `parts.join(sep)`: the parts in order with `sep` between neighbours. */
  function Join(parts: seq<string>, sep: string): string
  {
    if |parts| == 0 then ""
    else if |parts| == 1 then parts[0]
    else parts[0] + sep + Join(parts[1..], sep)
  }

  /** Joining two lists is joining their joins, with one separator between
      them unless one side is empty. */
  lemma {:induction false} JoinAppend(a: seq<string>, b: seq<string>, sep: string)
    ensures Join(a + b, sep) ==
      if |a| == 0 then Join(b, sep)
      else if |b| == 0 then Join(a, sep)
      else Join(a, sep) + sep + Join(b, sep)
  {
    if |a| == 0 {
      assert a + b == b;
    } else if |b| == 0 {
      assert a + b == a;
    } else if |a| == 1 {
      assert (a + b)[0] == a[0];
      assert (a + b)[1..] == b;
    } else {
      assert (a + b)[0] == a[0];
      assert (a + b)[1..] == a[1..] + b;
      JoinAppend(a[1..], b, sep);
    }
  }

  /** A join of non-empty parts is empty only when there are no parts. */
  lemma {:induction false} JoinNonEmpty(parts: seq<string>, sep: string)
    requires forall i :: 0 <= i < |parts| ==> |parts[i]| > 0
    ensures |Join(parts, sep)| == 0 <==> |parts| == 0
  {
    if |parts| > 1 {
      JoinNonEmpty(parts[1..], sep);
    }
  }

  predicate StartsWith(s: string, prefix: string)
  {
    |prefix| <= |s| && s[..|prefix|] == prefix
  }

  /** `s.includes(sub)`: `sub` occurs somewhere in `s`. */
  predicate Contains(s: string, sub: string)
    decreases |s|
  {
    StartsWith(s, sub) || (|s| > 0 && Contains(s[1..], sub))
  }

  /** `sub` occurs in `s` starting at index `i`. */
  predicate OccursAt(s: string, sub: string, i: int)
  {
    0 <= i && i + |sub| <= |s| && s[i..i + |sub|] == sub
  }

  /** The occurrence-based reading of `Contains`. */
  lemma {:induction false} ContainsAt(s: string, sub: string)
    ensures Contains(s, sub) <==> exists i :: OccursAt(s, sub, i)
    decreases |s|
  {
    if StartsWith(s, sub) {
      assert OccursAt(s, sub, 0);
    } else if |s| > 0 {
      ContainsAt(s[1..], sub);
      if exists i :: OccursAt(s, sub, i) {
        var i :| OccursAt(s, sub, i);
        assert i != 0;
        assert OccursAt(s[1..], sub, i - 1);
      }
      if Contains(s[1..], sub) {
        var i :| OccursAt(s[1..], sub, i);
        assert OccursAt(s, sub, i + 1);
      }
    }
  }

  /** `s.split(c)[0]`: everything before the first `c`, or all of `s`. */
  function BeforeFirst(s: string, c: char): (r: string)
    ensures |r| <= |s| && r == s[..|r|]
    ensures c !in r
    ensures |r| == |s| || s[|r|] == c
  {
    if |s| == 0 then ""
    else if s[0] == c then ""
    else [s[0]] + BeforeFirst(s[1..], c)
  }

  /** White space as JavaScript's `trim` and the regular expression `\s`
      see it: the ECMAScript WhiteSpace characters (tab, vertical tab, form
      feed, the byte order mark and every space separator) and the line
      terminators. */
  predicate IsSpace(c: char)
  {
    c == ' ' || c == '\t' || c == '\n' || c == '\r' || c == '\U{000B}' ||
    c == '\U{000C}' || c == '\U{00A0}' || c == '\U{FEFF}' || c == '\U{2028}' ||
    c == '\U{2029}' || c == '\U{1680}' || ('\U{2000}' <= c <= '\U{200A}') ||
    c == '\U{202F}' || c == '\U{205F}' || c == '\U{3000}'
  }

  /** `s.length`: the number of UTF-16 code units, two for a character
      outside the Basic Multilingual Plane. */
  function Utf16Length(s: string): (n: nat)
    ensures |s| <= n <= 2 * |s|
  {
    if |s| == 0 then 0 else (if s[0] <= '\U{FFFF}' then 1 else 2) + Utf16Length(s[1..])
  }

  /** Within the Basic Multilingual Plane the length is the character count. */
  lemma {:induction false} Utf16LengthOfBmp(s: string)
    requires forall i :: 0 <= i < |s| ==> s[i] <= '\U{FFFF}'
    ensures Utf16Length(s) == |s|
  {
    if |s| > 0 {
      Utf16LengthOfBmp(s[1..]);
    }
  }

  /** `s` without its leading white space. */
  function TrimStart(s: string): (r: string)
    ensures |r| <= |s| && r == s[|s| - |r|..]
    ensures forall i :: 0 <= i < |s| - |r| ==> IsSpace(s[i])
    ensures |r| == 0 || !IsSpace(r[0])
  {
    if |s| > 0 && IsSpace(s[0]) then TrimStart(s[1..]) else s
  }

  /** `s` without its trailing white space. */
  function TrimEnd(s: string): (r: string)
    ensures |r| <= |s| && r == s[..|r|]
    ensures forall i :: |r| <= i < |s| ==> IsSpace(s[i])
    ensures |r| == 0 || !IsSpace(r[|r| - 1])
  {
    if |s| > 0 && IsSpace(s[|s| - 1]) then TrimEnd(s[..|s| - 1]) else s
  }

  /** `s.trim()`. */
  function Trim(s: string): (r: string)
    ensures |r| <= |s|
    ensures |r| == 0 || (!IsSpace(r[0]) && !IsSpace(r[|r| - 1]))
  {
    TrimEnd(TrimStart(s))
  }

  /** The decimal text of a natural number, as `String(n)` prints it. */
  function DecimalString(n: nat): (r: string)
    ensures |r| > 0
    ensures forall i :: 0 <= i < |r| ==> '0' <= r[i] <= '9'
  {
    if n < 10 then [Digit(n)] else DecimalString(n / 10) + [Digit(n % 10)]
  }

  function Digit(d: nat): (c: char)
    requires d < 10
    ensures '0' <= c <= '9'
  {
    ['0', '1', '2', '3', '4', '5', '6', '7', '8', '9'][d]
  }
}

=== FILE: tooltip.dfy ===
/** `initTooltip`: the is-active flags of the page's tooltips, position by
    position, under a click on a trigger, the pointer leaving a tooltip, and
    a click outside every tooltip. */
module Tooltip {

  /** At most one tooltip is open. */
  predicate AtMostOneActive(t: seq<bool>)
  {
    forall j, k :: 0 <= j < |t| && 0 <= k < |t| && t[j] && t[k] ==> j == k
  }

  /** A click on the trigger of tooltip `i` flips it and closes every other one. */
  function ClickTrigger(t: seq<bool>, i: nat): (r: seq<bool>)
    requires i < |t|
    ensures |r| == |t|
    ensures r[i] == !t[i]
    ensures forall k :: 0 <= k < |r| && k != i ==> !r[k]
  {
    seq(|t|, k requires 0 <= k < |t| => if k == i then !t[i] else false)
  }

  /** The pointer leaving tooltip `i` closes it. */
  function MouseOut(t: seq<bool>, i: nat): (r: seq<bool>)
    requires i < |t|
    ensures |r| == |t| && !r[i]
    ensures forall k :: 0 <= k < |r| && k != i ==> r[k] == t[k]
  {
    t[i := false]
  }

  /** A click outside every tooltip closes them all. */
  function ClickOutside(t: seq<bool>): (r: seq<bool>)
    ensures |r| == |t| && forall k :: 0 <= k < |r| ==> !r[k]
  {
    seq(|t|, k requires 0 <= k < |t| => false)
  }

  /** Every handler leaves at most one tooltip open; the trigger click does so
      from any state, the other two keep the property. */
  lemma HandlersKeepAtMostOne(t: seq<bool>, i: nat)
    requires i < |t|
    ensures AtMostOneActive(ClickTrigger(t, i))
    ensures AtMostOneActive(t) ==> AtMostOneActive(MouseOut(t, i))
    ensures AtMostOneActive(ClickOutside(t))
  {
  }

  /** Two clicks on the same trigger from a closed page open it and close it again. */
  lemma ClickTwiceCloses(t: seq<bool>, i: nat)
    requires i < |t|
    ensures var r := ClickTrigger(ClickTrigger(t, i), i);
      r[i] == t[i] && forall k :: 0 <= k < |r| && k != i ==> !r[k]
  {
  }
}

=== FILE: upsell.dfy ===
/** The cart's upsell list: recommended products not in the cart, shown one
    card at a time with arrow or dot navigation. The candidate pool recorded
    on first initialisation decides which removed cart items may come back. */
module Upsell {
  import opened Wrappers
  import opened Text
  import Seqs

  /** A product as the recommendation and product endpoints return it.
      `available` stands for "has an available variant". */
  datatype Product = Product(id: nat, handle: string, available: bool)

  /** A cart line as the upsell logic reads it: its `data-product-id` and
      `data-product-handle` attributes, both strings. */
  datatype CartRef = CartRef(productId: string, handle: string)

  /** A rendered upsell card. */
  datatype Card = Card(handle: string, active: bool)

  /** The rendered list and its pagination dots (`None`: the page has no dot
      group). A dot is `true` when it is the active one. */
  datatype View = View(cards: seq<Card>, dots: Option<seq<bool>>)

  /** Module-level upsell state: the view, the recorded pool of handles, the
      "already initialised" flag, and the container's visibility classes
      (`has-upsell-items`, `is-only-one-upsell-item`, `is-no-upsell-items`). */
  datatype State = State(view: View, pool: seq<string>, initialised: bool,
                         hasItems: bool, onlyOne: bool, noItems: bool)

  function CartIds(cart: seq<CartRef>): (ids: seq<string>)
    ensures |ids| == |cart|
    ensures forall i :: 0 <= i < |cart| ==> ids[i] == cart[i].productId
  {
    if |cart| == 0 then [] else [cart[0].productId] + CartIds(cart[1..])
  }

  function CartHandles(cart: seq<CartRef>): (hs: seq<string>)
    ensures |hs| == |cart|
    ensures forall i :: 0 <= i < |cart| ==> hs[i] == cart[i].handle
  {
    seq(|cart|, i requires 0 <= i < |cart| => cart[i].handle)
  }

  function Handles(cards: seq<Card>): (hs: seq<string>)
    ensures |hs| == |cards|
    ensures forall i :: 0 <= i < |cards| ==> hs[i] == cards[i].handle
  {
    if |cards| == 0 then [] else [cards[0].handle] + Handles(cards[1..])
  }

  lemma HandlesAppend(a: seq<Card>, b: seq<Card>)
    ensures Handles(a + b) == Handles(a) + Handles(b)
  {
    assert forall i :: 0 <= i < |a + b| ==> Handles(a + b)[i] == (Handles(a) + Handles(b))[i];
  }

  // ----- candidates: flatten, filter, dedupe -----

  /** No earlier product of `s` has the id of `s[i]`: the source's test
      `index === self.findIndex(t => t.id === item.id)`. */
  predicate IsFirst(s: seq<Product>, i: int)
    requires 0 <= i < |s|
  {
    forall j :: 0 <= j < i ==> s[j].id != s[i].id
  }

  /** The products of `s` that are the first with their id, in order. */
  function DedupeById(s: seq<Product>): (r: seq<Product>)
    ensures |r| <= |s|
    ensures forall k :: 0 <= k < |r| ==> r[k] in s
  {
    if |s| == 0 then []
    else
      var d := DedupeById(s[..|s| - 1]);
      if IsFirst(s, |s| - 1) then d + [s[|s| - 1]] else d
  }

  /** Every kept product is the first of `s` with its id. */
  ghost predicate OnlyFirstOccurrences(s: seq<Product>, r: seq<Product>)
  {
    forall k :: 0 <= k < |r| ==> exists i :: 0 <= i < |s| && IsFirst(s, i) && r[k] == s[i]
  }

  /** The ids occurring in a product list. */
  function IdSet(s: seq<Product>): set<nat>
  {
    set p | p in s :: p.id
  }

  ghost predicate UniqueIds(r: seq<Product>)
  {
    forall a, b :: 0 <= a < b < |r| ==> r[a].id != r[b].id
  }

  /** Any two kept products appear in `s` in the same order. */
  ghost predicate SameOrder(s: seq<Product>, r: seq<Product>)
  {
    forall a, b :: 0 <= a < b < |r| ==> exists i, j :: 0 <= i < j < |s| && r[a] == s[i] && r[b] == s[j]
  }

  lemma PrefixFirst(s: seq<Product>, n: nat)
    requires n <= |s|
    ensures forall i :: 0 <= i < n ==> s[..n][i] == s[i]
    ensures forall i :: 0 <= i < n && IsFirst(s[..n], i) ==> IsFirst(s, i)
  {
  }

  /** Deduplication keeps only first occurrences. */
  lemma {:induction false} DedupeKeepsOnlyFirsts(s: seq<Product>)
    ensures OnlyFirstOccurrences(s, DedupeById(s))
  {
    if |s| > 0 {
      var n := |s| - 1;
      var p := s[..n];
      var d := DedupeById(p);
      var r := DedupeById(s);
      DedupeKeepsOnlyFirsts(p);
      PrefixFirst(s, n);
      assert r == if IsFirst(s, n) then d + [s[n]] else d;
      forall k | 0 <= k < |r|
        ensures exists i :: 0 <= i < |s| && IsFirst(s, i) && r[k] == s[i]
      {
        if k < |d| {
          var i :| 0 <= i < n && IsFirst(p, i) && d[k] == p[i];
          assert IsFirst(s, i) && r[k] == s[i];
        } else {
          assert IsFirst(s, n) && r[k] == s[n];
        }
      }
    }
  }

  /** Deduplication drops no id. */
  lemma {:induction false} DedupeKeepsEveryId(s: seq<Product>)
    ensures IdSet(DedupeById(s)) == IdSet(s)
  {
    if |s| > 0 {
      var n := |s| - 1;
      var p := s[..n];
      var d := DedupeById(p);
      DedupeKeepsEveryId(p);
      assert s == p + [s[n]];
      assert IdSet(s) == IdSet(p) + {s[n].id};
      if IsFirst(s, n) {
        assert IdSet(d + [s[n]]) == IdSet(d) + {s[n].id};
      } else {
        var j :| 0 <= j < n && s[j].id == s[n].id;
        assert p[j] == s[j];
        assert s[n].id in IdSet(p);
      }
    }
  }

  /** Deduplication leaves no id twice. */
  lemma {:induction false} DedupeHasUniqueIds(s: seq<Product>)
    ensures UniqueIds(DedupeById(s))
  {
    if |s| > 0 {
      var n := |s| - 1;
      var p := s[..n];
      var d := DedupeById(p);
      var r := DedupeById(s);
      DedupeHasUniqueIds(p);
      DedupeKeepsOnlyFirsts(p);
      PrefixFirst(s, n);
      if IsFirst(s, n) {
        forall a, b | 0 <= a < b < |r|
          ensures r[a].id != r[b].id
        {
          if b == |d| {
            var i :| 0 <= i < n && IsFirst(p, i) && d[a] == p[i];
            assert r[a] == s[i] && r[b] == s[n];
          } else {
            assert r[a] == d[a] && r[b] == d[b];
          }
        }
      }
    }
  }

  /** Deduplication keeps the products' relative order. */
  lemma {:induction false} DedupeKeepsOrder(s: seq<Product>)
    ensures SameOrder(s, DedupeById(s))
  {
    if |s| > 0 {
      var n := |s| - 1;
      var p := s[..n];
      var d := DedupeById(p);
      var r := DedupeById(s);
      DedupeKeepsOrder(p);
      PrefixFirst(s, n);
      assert forall k :: 0 <= k < |d| ==> d[k] in p;
      forall a, b | 0 <= a < b < |r|
        ensures exists i, j :: 0 <= i < j < |s| && r[a] == s[i] && r[b] == s[j]
      {
        if b < |d| {
          var i, j :| 0 <= i < j < n && d[a] == p[i] && d[b] == p[j];
          assert r[a] == s[i] && r[b] == s[j];
        } else {
          assert d[a] in p;
          var i :| 0 <= i < n && p[i] == d[a];
          assert r[a] == s[i] && r[b] == s[n];
        }
      }
    }
  }

  // ----- candidates: which recommended products become cards -----

  /** A recommended product may be offered when it is available and is not
      the product of a cart line (the cart's ids are decimal strings). */
  predicate Eligible(cartIds: seq<string>, p: Product)
  {
    p.available && DecimalString(p.id) !in cartIds
  }

  /** `fetchUpsellItems` as intended: no candidates for an empty cart;
      otherwise the recommendations of all cart products, flattened, reduced
      to eligible products and deduplicated by id. */
  function Candidates(cartIds: seq<string>, responses: seq<seq<Product>>): (r: seq<Product>)
    ensures |cartIds| == 0 ==> r == []
    ensures forall k :: 0 <= k < |r| ==> Eligible(cartIds, r[k])
  {
    if |cartIds| == 0 then []
    else DedupeById(Seqs.Filter(Seqs.Flatten(responses), (p: Product) => Eligible(cartIds, p)))
  }

  /** The candidates are exactly the eligible recommended products, one per
      id, each the first of its id in flattened order, in that order; filtering
      each response before flattening, as the source does, gives the same list. */
  lemma CandidatesSpec(cartIds: seq<string>, responses: seq<seq<Product>>)
    requires |cartIds| > 0
    ensures var eligible := Seqs.Filter(Seqs.Flatten(responses), (p: Product) => Eligible(cartIds, p));
      var r := Candidates(cartIds, responses);
      && UniqueIds(r)
      && IdSet(r) == IdSet(eligible)
      && OnlyFirstOccurrences(eligible, r)
      && SameOrder(eligible, r)
      && eligible == Seqs.Flatten(seq(|responses|, i requires 0 <= i < |responses| =>
           Seqs.Filter(responses[i], (p: Product) => Eligible(cartIds, p))))
  {
    var keep := (p: Product) => Eligible(cartIds, p);
    var eligible := Seqs.Filter(Seqs.Flatten(responses), keep);
    DedupeHasUniqueIds(eligible);
    DedupeKeepsEveryId(eligible);
    DedupeKeepsOnlyFirsts(eligible);
    DedupeKeepsOrder(eligible);
    Seqs.FilterFlatten(responses, keep);
  }

  /** No cart product is ever a candidate. */
  lemma CandidatesAvoidCartProducts(cartIds: seq<string>, responses: seq<seq<Product>>, k: nat)
    requires k < |Candidates(cartIds, responses)|
    ensures DecimalString(Candidates(cartIds, responses)[k].id) !in cartIds
  {
  }

  /** A JavaScript value as `Array.prototype.includes` compares it. */
  datatype JsValue = JsString(s: string) | JsNumber(n: int)

  /** The cart ids as the source holds them: attribute strings. */
  function AsJsStrings(ids: seq<string>): (vs: seq<JsValue>)
    ensures |vs| == |ids|
    ensures forall i :: 0 <= i < |ids| ==> vs[i] == JsString(ids[i])
  {
    if |ids| == 0 then [] else [JsString(ids[0])] + AsJsStrings(ids[1..])
  }

  /** `fetchUpsellItems` as written: the cart's string ids are searched for the
      product's numeric id, and `includes` never equates a string with a number. */
  function CandidatesAsWritten(cartIds: seq<string>, responses: seq<seq<Product>>): (r: seq<Product>)
    ensures |cartIds| == 0 ==> r == []
    ensures forall k :: 0 <= k < |r| ==> r[k].available
  {
    if |cartIds| == 0 then []
    else DedupeById(Seqs.Filter(Seqs.Flatten(responses),
                                (p: Product) => p.available && JsNumber(p.id) !in AsJsStrings(cartIds)))
  }

  /** As written, the cart-id exclusion never removes anything: the result
      depends on the cart only through whether it is empty. */
  lemma AsWrittenIgnoresCartIds(cartIds: seq<string>, responses: seq<seq<Product>>)
    requires |cartIds| > 0
    ensures CandidatesAsWritten(cartIds, responses) ==
      DedupeById(Seqs.Filter(Seqs.Flatten(responses), (p: Product) => p.available))
  {
    var flat := Seqs.Flatten(responses);
    Seqs.FilterAgree(flat, (p: Product) => p.available && JsNumber(p.id) !in AsJsStrings(cartIds),
                     (p: Product) => p.available);
  }

  /** A cart whose product 7 is also recommended: as written, product 7 is
      offered as an upsell; the intended exclusion drops it. */
  lemma AsWrittenOffersCartProduct()
    ensures DecimalString(7) == "7"
    ensures CandidatesAsWritten(["7"], [[Product(7, "tee", true)]]) == [Product(7, "tee", true)]
    ensures Candidates(["7"], [[Product(7, "tee", true)]]) == []
  {
    var flat := Seqs.Flatten([[Product(7, "tee", true)]]);
    assert flat == [Product(7, "tee", true)];
    AsWrittenIgnoresCartIds(["7"], [[Product(7, "tee", true)]]);
    var kept := Seqs.Filter(flat, (p: Product) => p.available);
    assert kept == [Product(7, "tee", true)];
    assert DedupeById(kept) == DedupeById([]) + [Product(7, "tee", true)];
  }

  // ----- cards and dots -----

  /** `createUpsellItemCards`: one card per product, the first one active. */
  function CreateCards(products: seq<Product>): (cards: seq<Card>)
    ensures |cards| == |products|
    ensures forall i :: 0 <= i < |cards| ==> cards[i].handle == products[i].handle
    ensures forall i :: 0 <= i < |cards| ==> (cards[i].active <==> i == 0)
  {
    seq(|products|, i requires 0 <= i < |products| => Card(products[i].handle, i == 0))
  }

  /** The pool consequence of the as-written candidates, on the cart of
      `AsWrittenOffersCartProduct`: the as-written pool records the cart's own
      product "tee", so removing its cart line restores it as an upsell; the
      intended pool is empty and the same removal restores nothing. */
  lemma AsWrittenPoolRestoresCartProduct(s: State)
    ensures var tee := Product(7, "tee", true);
      && StoreUpsellProducts([], CreateCards(CandidatesAsWritten(["7"], [[tee]]))) == ["tee"]
      && StoreUpsellProducts([], CreateCards(Candidates(["7"], [[tee]]))) == []
      && RestoreUpsellItem(s.(pool := ["tee"]), true, "tee", tee).view.cards[0] == Card("tee", true)
      && RestoreUpsellItem(s.(pool := []), true, "tee", tee) == s.(pool := [])
  {
    AsWrittenOffersCartProduct();
    var cards := CreateCards([Product(7, "tee", true)]);
    assert Handles(cards) == [cards[0].handle] + Handles([]);
  }

  /** `createUpsellDots`: no dots for at most one card, otherwise one dot per
      card with the first active. */
  function CreateDots(n: int): (dots: seq<bool>)
    ensures n <= 1 ==> |dots| == 0
    ensures n > 1 ==> |dots| == n && forall i :: 0 <= i < n ==> (dots[i] <==> i == 0)
  {
    if n <= 1 then [] else seq(n, i requires 0 <= i < n => i == 0)
  }

  /** Rebuilding the dots of a dot group (an absent group stays absent). */
  function RebuildDots(dots: Option<seq<bool>>, n: int): Option<seq<bool>>
  {
    if dots.Some? then Some(CreateDots(n)) else None
  }

  // ----- filtering against the cart -----

  /** The cards whose product is not in the cart. */
  function Survivors(cards: seq<Card>, cartHandles: seq<string>): seq<Card>
  {
    Seqs.Filter(cards, (c: Card) => c.handle !in cartHandles)
  }

  function ActivateFirst(cards: seq<Card>): (r: seq<Card>)
    ensures |r| == |cards|
    ensures |r| > 0 ==> r[0] == cards[0].(active := true)
    ensures forall k :: 1 <= k < |r| ==> r[k] == cards[k]
  {
    if |cards| == 0 then [] else [cards[0].(active := true)] + cards[1..]
  }

  /** `filterUpsellItems`: with a non-empty cart and list, the cards of cart
      products are removed, the first survivor is marked active (the others
      keep their flags) and the dots are rebuilt; the survivors are returned.
      Otherwise nothing changes and nothing is returned. */
  function FilterUpsellItems(cart: seq<CartRef>, v: View): (r: (View, Option<seq<Card>>))
    ensures |cart| == 0 || |v.cards| == 0 ==> r == (v, None)
    ensures forall k :: 0 <= k < |r.0.cards| ==> r.0.cards[k].handle !in CartHandles(cart)
    ensures |cart| > 0 && |v.cards| > 0 ==>
      && r.1 == Some(r.0.cards)
      && Handles(r.0.cards) == Handles(Survivors(v.cards, CartHandles(cart)))
      && (forall i :: 0 <= i < |v.cards| && v.cards[i].handle !in CartHandles(cart) ==>
            v.cards[i].handle in Handles(r.0.cards))
      && (|r.0.cards| > 0 ==> r.0.cards[0].active)
      && (forall k :: 1 <= k < |r.0.cards| ==> r.0.cards[k] in v.cards)
      && |r.0.cards| == |Survivors(v.cards, CartHandles(cart))|
      && (|r.0.cards| > 0 ==> r.0.cards[0] == Survivors(v.cards, CartHandles(cart))[0].(active := true))
      && (forall k :: 1 <= k < |r.0.cards| ==> r.0.cards[k] == Survivors(v.cards, CartHandles(cart))[k])
      && r.0.dots == RebuildDots(v.dots, |r.0.cards|)
  {
    if |cart| == 0 || |v.cards| == 0 then (v, None)
    else
      var survivors := Survivors(v.cards, CartHandles(cart));
      var cards := ActivateFirst(survivors);
      assert forall k :: 0 <= k < |survivors| ==> survivors[k].handle == cards[k].handle;
      assert Handles(cards) == Handles(survivors);
      (View(cards, RebuildDots(v.dots, |cards|)), Some(cards))
  }

  /** Filtering against the same cart a second time changes nothing. */
  lemma {:induction false} FilterUpsellItemsIdempotent(cart: seq<CartRef>, v: View)
    ensures var once := FilterUpsellItems(cart, v).0;
      FilterUpsellItems(cart, once).0 == once
  {
    var once := FilterUpsellItems(cart, v).0;
    if |cart| > 0 && |once.cards| > 0 {
      var keep := (c: Card) => c.handle !in CartHandles(cart);
      Seqs.FilterKeepsAll(once.cards, keep);
      assert ActivateFirst(once.cards) == once.cards;
    }
  }

  // ----- the candidate pool -----

  /** `storeUpsellProducts`: the pool of handles is recorded from the current
      cards only while it is empty. */
  function StoreUpsellProducts(pool: seq<string>, cards: seq<Card>): (r: seq<string>)
    ensures |pool| > 0 ==> r == pool
    ensures |pool| == 0 ==> r == Handles(cards)
  {
    if |pool| > 0 then pool else Handles(cards)
  }

  /** The pool after a series of store calls, one per list of cards seen. */
  function StoreAll(pool: seq<string>, seen: seq<seq<Card>>): seq<string>
    decreases |seen|
  {
    if |seen| == 0 then pool else StoreAll(StoreUpsellProducts(pool, seen[0]), seen[1..])
  }

  /** The first non-empty recording wins: a non-empty pool survives any later
      store calls, and an empty one ends up as the handles of the first list
      of cards that yields any. */
  lemma {:induction false} PoolRecordedOnce(pool: seq<string>, seen: seq<seq<Card>>)
    ensures |pool| > 0 ==> StoreAll(pool, seen) == pool
    ensures |pool| == 0 ==> forall i ::
      (0 <= i < |seen| && |seen[i]| > 0 && (forall j :: 0 <= j < i ==> |seen[j]| == 0)) ==>
        StoreAll(pool, seen) == Handles(seen[i])
    decreases |seen|
  {
    if |seen| > 0 {
      PoolRecordedOnce(StoreUpsellProducts(pool, seen[0]), seen[1..]);
      if |pool| == 0 {
        forall i | 0 <= i < |seen| && |seen[i]| > 0 && (forall j :: 0 <= j < i ==> |seen[j]| == 0)
          ensures StoreAll(pool, seen) == Handles(seen[i])
        {
          if i > 0 {
            assert |Handles(seen[0])| == 0;
            assert seen[1..][i - 1] == seen[i];
          }
        }
      }
    }
  }

  // ----- initialisation and restoration -----

  /** `createUpsell`: with no cart lines the container is flagged as having no
      items; otherwise one card per candidate is appended (when there are any),
      the pool is recorded and dots are appended for the new cards. */
  function CreateUpsell(s: State, cart: seq<CartRef>, responses: seq<seq<Product>>): (r: State)
    ensures |cart| == 0 ==> r == s.(noItems := true)
    ensures |cart| > 0 ==> r.noItems == s.noItems && r.initialised == s.initialised
    ensures |s.pool| > 0 ==> r.pool == s.pool
    ensures |cart| > 0 ==>
      Handles(r.view.cards) == Handles(s.view.cards) + Handles(CreateCards(Candidates(CartIds(cart), responses)))
    ensures |cart| > 0 && |Candidates(CartIds(cart), responses)| == 0 ==> r == s
    ensures |cart| > 0 && |s.pool| == 0 && |Candidates(CartIds(cart), responses)| > 0 ==>
      r.pool == Handles(r.view.cards)
    ensures |cart| > 0 && |Candidates(CartIds(cart), responses)| > 0 ==>
      && (r.view.dots.Some? <==> s.view.dots.Some?)
      && (r.view.dots.Some? ==>
            r.view.dots.value == s.view.dots.value + CreateDots(|Candidates(CartIds(cart), responses)|))
  {
    if |cart| == 0 then s.(noItems := true)
    else
      var products := Candidates(CartIds(cart), responses);
      if |products| == 0 then s
      else
        var added := CreateCards(products);
        var cards := s.view.cards + added;
        HandlesAppend(s.view.cards, added);
        var dots := if s.view.dots.Some? then Some(s.view.dots.value + CreateDots(|added|)) else None;
        s.(view := View(cards, dots), pool := StoreUpsellProducts(s.pool, cards))
  }

  /** The state after the build step of `initUpsell`: the list is created
      only when it holds no card yet. */
  function Built(s: State, cart: seq<CartRef>, responses: seq<seq<Product>>): State
  {
    if |s.view.cards| == 0 then CreateUpsell(s, cart, responses) else s
  }

  /** `initUpsell`: build the list when it has no cards, filter it against the
      cart, record the pool on the first run, and set the visibility classes
      from the filter's result. Without an upsell container nothing happens. */
  function InitUpsell(s: State, upsellPresent: bool, cart: seq<CartRef>, responses: seq<seq<Product>>): (r: State)
    ensures !upsellPresent ==> r == s
    ensures upsellPresent ==> r.initialised
    ensures |s.pool| > 0 ==> r.pool == s.pool
    ensures forall k :: 0 <= k < |r.view.cards| && upsellPresent && |cart| > 0 ==>
      r.view.cards[k].handle !in CartHandles(cart)
    ensures upsellPresent ==> (r.hasItems <==> |cart| > 0 && |r.view.cards| > 0)
    ensures upsellPresent ==> (r.onlyOne <==> |cart| > 0 && |r.view.cards| == 1)
    ensures upsellPresent && |cart| > 0 ==>
      Handles(r.view.cards) == Handles(Survivors(Built(s, cart, responses).view.cards, CartHandles(cart)))
    ensures upsellPresent && |cart| == 0 ==> r.view == Built(s, cart, responses).view
    ensures upsellPresent && !s.initialised && |Built(s, cart, responses).pool| == 0 ==>
      r.pool == Handles(r.view.cards)
    ensures |cart| > 0 || |s.view.cards| > 0 ==> r.noItems == s.noItems
    ensures upsellPresent && |cart| == 0 && |s.view.cards| == 0 ==> r.noItems
  {
    if !upsellPresent then s
    else
      var built := Built(s, cart, responses);
      var (view, remaining) := FilterUpsellItems(cart, built.view);
      var pool := if built.initialised then built.pool else StoreUpsellProducts(built.pool, view.cards);
      var n := if remaining.Some? then |remaining.value| else 0;
      built.(view := view, pool := pool, initialised := true, hasItems := n > 0, onlyOne := n == 1)
  }

  /** `restoreUpsellItem`: when a removed cart line's handle is in the pool,
      the freshly fetched product's card goes to the front as the only active
      card, the dots are rebuilt and the list becomes visible. Handles outside
      the pool, a missing container, or a product without an available
      variant (the card cannot be built) leave everything unchanged. */
  function RestoreUpsellItem(s: State, upsellPresent: bool, removed: string, fetched: Product): (r: State)
    ensures !upsellPresent || removed !in s.pool || !fetched.available ==> r == s
    ensures r.pool == s.pool && r.initialised == s.initialised
    ensures upsellPresent && removed in s.pool && fetched.available ==>
      && |r.view.cards| == |s.view.cards| + 1
      && r.view.cards[0] == Card(fetched.handle, true)
      && (forall k :: 1 <= k < |r.view.cards| ==> r.view.cards[k] == s.view.cards[k - 1].(active := false))
      && r.view.dots == RebuildDots(s.view.dots, |r.view.cards|)
      && r.hasItems && (r.onlyOne <==> |s.view.cards| == 0)
  {
    if !upsellPresent || removed !in s.pool || !fetched.available then s
    else
      var rest := seq(|s.view.cards|, k requires 0 <= k < |s.view.cards| => s.view.cards[k].(active := false));
      var cards := CreateCards([fetched]) + rest;
      s.(view := View(cards, RebuildDots(s.view.dots, |cards|)), hasItems := |cards| > 0, onlyOne := |cards| == 1)
  }

  /** After a restore exactly one card is active: the restored one. */
  lemma RestoreLeavesSoleActive(s: State, removed: string, fetched: Product)
    requires removed in s.pool && fetched.available
    ensures var r := RestoreUpsellItem(s, true, removed, fetched);
      forall k :: 0 <= k < |r.view.cards| ==> (r.view.cards[k].active <==> k == 0)
  {
  }

  /** Removing a cart line whose product was in the original pool brings its
      card back first and active; one never in the pool changes nothing. */
  lemma RestoreOnlyFromPool(s: State, removed: string, fetched: Product)
    requires fetched.handle == removed && fetched.available
    ensures var r := RestoreUpsellItem(s, true, removed, fetched);
      && (removed in s.pool ==> Handles(r.view.cards)[0] == removed && r.view.cards[0].active)
      && (removed !in s.pool ==> r == s)
  {
  }

  // ----- navigation -----

  /** The left arrow: one card back, wrapping from the first to the last. */
  function ArrowLeft(index: int, n: nat): (i: int)
    ensures 0 <= index < n ==> 0 <= i < n && i == (index + n - 1) % n
  {
    if index - 1 < 0 then n - 1 else index - 1
  }

  /** The right arrow: one card on, wrapping from the last to the first. */
  function ArrowRight(index: int, n: nat): (i: int)
    ensures 0 <= index < n ==> 0 <= i < n && i == (index + 1) % n
  {
    if index + 1 > n - 1 then 0 else index + 1
  }

  /** Cards active exactly at `index`. */
  function ShowOnly(cards: seq<Card>, index: int): (r: seq<Card>)
    ensures |r| == |cards|
    ensures forall k :: 0 <= k < |r| ==> r[k].handle == cards[k].handle && (r[k].active <==> k == index)
  {
    seq(|cards|, k requires 0 <= k < |cards| => cards[k].(active := k == index))
  }

  /** Left and right undo each other on a valid index. */
  lemma ArrowsAreInverse(index: int, n: nat)
    requires 0 <= index < n
    ensures ArrowLeft(ArrowRight(index, n), n) == index
    ensures ArrowRight(ArrowLeft(index, n), n) == index
  {
  }

  /** The arrow index is kept across list changes; once it is beyond the end
      of a shorter list, the left arrow activates no card at all. */
  lemma StaleArrowIndexShowsNothing(cards: seq<Card>)
    requires |cards| == 3
    ensures ArrowLeft(5, |cards|) == 4
    ensures forall k :: 0 <= k < |cards| ==> !ShowOnly(cards, ArrowLeft(5, |cards|))[k].active
  {
  }

  /** A click on dot `k`: only that dot and the card at the same position are active. */
  function ClickDot(v: View, k: nat): (r: View)
    requires v.dots.Some? && k < |v.dots.value|
    ensures r.dots.Some? && |r.dots.value| == |v.dots.value|
    ensures forall i :: 0 <= i < |r.dots.value| ==> (r.dots.value[i] <==> i == k)
    ensures |r.cards| == |v.cards|
    ensures forall i :: 0 <= i < |r.cards| ==> r.cards[i].handle == v.cards[i].handle && (r.cards[i].active <==> i == k)
  {
    View(ShowOnly(v.cards, k), Some(seq(|v.dots.value|, i requires 0 <= i < |v.dots.value| => i == k)))
  }
}

=== FILE: wrappers.dfy ===
/** Optional values: the model's stand-in for JavaScript's `null`/`undefined`
    results (a missing element, an absent attribute, a failed lookup). */
module Wrappers {

  datatype Option<+T> = None | Some(value: T) {

    /** The wrapped value, or `default` when there is none. */
    function GetOr(default: T): T {
      match this
      case Some(v) => v
      case None => default
    }
  }
}
